=== FILE: README.md ===
# qtWsdlConverter's standard path, as a Dafny model

The standard path of `qtWsdlConverter` reads a parsed WSDL service and writes
C++ client classes for it. Each web-service method gets one message class.
The service gets one facade class that wraps all the message classes. This
project models three parts of that generator:

- **What gets generated.** Which members each emitted class declares and
  defines. This depends on the method's parameter and return maps and on the
  generation flags (mode, synchronousness, protocol). The build system only
  adds the build file to the schedule of `Generation.Schedule`.
- **What the generated code does at run time.** The generated
  `replyFinished`, `convertReplyToUtf` and `prepareRequestData` bodies.
- **How `create` runs.** The order in which it writes files, and how
  `enterErrorState` records a failure and ends the run.

Literal source text is not modelled. Each emitted class is a sequence of
tags for its input-dependent and callable members, in emission order. A file that cannot be opened is an input: a
set of unwritable files.

## Modules

| file | module | what it holds |
|---|---|---|
| `options.dfy` | `Options` | `Option<T>` |
| `qstrings.dfy` | `QStrings` | QString operations the generator and the generated code rely on: `indexOf`, `mid`, `chop`, joining, and the key order of QMap |
| `qmaps.dfy` | `QMaps` | QMap as a sequence of entries in strictly ascending key order, with `insert` and lookup |
| `wsdl.dfy` | `Wsdl` | what the generator reads for one method (a `QSoapMessage`) |
| `settings.dfy` | `Settings` | the generation flags and the protocol literal |
| `signatures.dfy` | `Signatures` | the comma-separated parameter and argument lists, and the reply name and type |
| `message_planner.dfy` | `MessagePlanner` | the members of one message class, in its header and in its source |
| `service_planner.dfy` | `ServicePlanner` | the members of the facade class, the body of each `<op>Send`, and the constructor's `connect` calls |
| `entities.dfy` | `Entities` | the generated `convertReplyToUtf` and `QString::replace` |
| `reply_extraction.dfy` | `ReplyExtraction` | how the generated `replyFinished` cuts the reply out of a response body |
| `request_payload.dfy` | `RequestPayload` | the request body built by the generated `prepareRequestData` |
| `message_runtime.dfy` | `MessageRuntime` | the run-time state of a generated message object and the slots that change it |
| `generation.dfy` | `Generation` | `enterErrorState`, the file schedule of `create`, and how failures end the run |

## Behaviour as written

The model follows the generator's code, including its quirks.

- **Iteration order.** Parameters and methods come out in QMap key order,
  which is ascending by name. Declaration order does not matter
  (`Signatures.ListsIgnoreDeclarationOrder`).
- **Unescaping happens first.** The generated `replyFinished` unescapes the
  whole response body and only then looks for the markers. A marker written
  as `&lt;getXResult&gt;` is therefore found too
  (`ReplyExtraction.EscapedWrappedValue`).
- **A missing opening tag does not give an empty reply.** `replyBeginIndex`
  gets the tag length added before the `== -1` test, so that test can never
  fire. The branch it guards also clears `replyBytes`, not `reply`. With no
  opening tag, the reply is cut from offset `len("<NameResult>") - 1`
  (`ReplyExtraction.ExtractWithoutOpenTag`,
  `ReplyExtraction.MissingOpenTagExample`).
- **The request carries no parameters.** The generated `prepareRequestData`
  loops over a local map that it has just declared, so the loop body never
  runs. Parameters bound with `setParams` never reach the request
  (`MessageRuntime.RequestIgnoresBoundParameters`).
- **The namespace is not part of the request.** The generated statement that
  writes the operation element uses adjacent string literals. The C++
  compiler joins them, so the request contains the text
  `xmlns= + targetNamespace + >` and never the namespace value
  (`RequestPayload.PayloadIgnoresNamespace`). The generated `targetNamespace`
  member is never assigned anyway: the default constructor sets `hostname` instead (line 289).
- **Asynchronous compact mode refers to members that do not exist.** Each
  `<op>Send` forwards to an owned message instance. The header declares
  those instances only outside compact mode. The constructor connects each
  instance's signal to an empty slot name (`ServicePlanner.CompactAsyncDangling`).
- **A main.cpp failure is swallowed.** `createMessages` ignores the result
  of `createMainCpp`. If main.cpp cannot be written, the error is logged
  and the error state is set, but `create` still returns true
  (`Generation.MainCppFailureSwallowed`). The logged message uses the
  wording of the service header ("could not open Web Service header file").
- **The parameterised constructor leaves the message unnamed.** It binds
  the values and the protocol but sets neither `messageName` nor `hostname`,
  which stay empty. An object built this way posts an operation element with
  an empty name and looks for `<Result>` in the reply
  (`MessageRuntime.ParamConstructedLosesName`). The static sender uses the
  default constructor and is not affected (`MessageRuntime.StaticSendRequest`).
- **No reply is ever handled by the emitted code.** The only statements that
  allocate `manager` and connect its `finished` signal to `replyFinished`
  sit in an `init()` that is commented out (lines 519-531), and no constructor
  calls it. `sendMessage` therefore posts through an uninitialised pointer, the
  destructor deletes one (line 334), and `replyFinished` is never invoked.
  `MessageRuntime.ReplyFinished`, `MessageRuntime.StaticSendReturnsAnnouncedReply`
  and `MessageRuntime.LatestReplyWins` describe what that slot would do if it
  were connected; the static sender's wait loop, as emitted, never ends.
- **Only the first return entry counts.** The reply name is the first entry
  of `getReturnValueName()`. The reply type is the type of the first entry
  in the return map (`Signatures.ReplyTypeIgnoresLaterReturns`).

## Model

| member | source | states |
|---|---|---|
| Signatures.ParamList | qtWsdlConverter/sources/standardpath.cpp:141-148 | the parameter list is the ", "-join of "type name" over the parameters in ascending name order, and is empty exactly when there are no parameters |
| Signatures.ChoppedList | qtWsdlConverter/sources/standardpath.cpp:144-148 | appending "item, " per entry and then chopping two characters gives exactly the ", "-join of the items |
| Signatures.AccumulateIsJoin | qtWsdlConverter/sources/standardpath.cpp:144-147 | the running accumulation is empty for no items, else the ", "-join followed by one trailing ", " |
| Signatures.ArgList | qtWsdlConverter/sources/standardpath.cpp:404-413 | the argument list forwarded by the static sender is the ", "-join of the parameter names in ascending order |
| Signatures.ReplyTypeIgnoresLaterReturns | qtWsdlConverter/sources/standardpath.cpp:133-138 | only the first return entry sets the reply type: adding a return entry that sorts after it leaves the type unchanged |
| Signatures.ListsIgnoreDeclarationOrder | qtWsdlConverter/sources/standardpath.cpp:141-147 | two declarations of the same distinct parameters, in any order, give the same parameter list and the same argument list |
| QMaps.DeclarationOrderIrrelevant | qtWsdlConverter/sources/standardpath.cpp:144-146 | filling a map with the same distinct entries in any order gives the same map, so the key-order iteration of the generator does not depend on declaration order |
| Settings.ProtocolLiteral | qtWsdlConverter/sources/standardpath.cpp:292-301 | the protocol literal assigned in the constructor is one of the enumerators of the emitted Protocol enum |
| Settings.ProtocolLiteralRoundTrip | qtWsdlConverter/sources/standardpath.cpp:292-301 | reading the assigned literal back gives the protocol named in the flags |
| MessagePlanner.PlanMessage | qtWsdlConverter/sources/standardpath.cpp:120-573 | the class is named after the message; parameter list, argument list, reply name and reply type are as in Signatures; the parameterised constructor and sendMessage overload are declared and defined iff there are parameters; setProtocol is declared and defined iff the mode is not compact; the debug dump is emitted iff the mode is debug and never declared; every always-emitted member is in both header and source; the reply data member is declared; the protocol literal names the flags' protocol |
| MessagePlanner.LifecycleMembers | qtWsdlConverter/sources/standardpath.cpp:171-178 | the lifecycle part holds the default constructor, destructor and setParams always, the parameterised constructor iff there are parameters, and setProtocol iff configurable |
| MessagePlanner.SendersMembers | qtWsdlConverter/sources/standardpath.cpp:179-191 | the sender part holds sendMessage() and the static sendMessage always, the parameterised overload iff there are parameters, and the debug dump iff requested |
| MessagePlanner.DeclaredShape | qtWsdlConverter/sources/standardpath.cpp:171-213 | the header holds the parameter-dependent members iff there are parameters, setProtocol iff configurable, no debug dump, and every always-emitted member |
| MessagePlanner.DefinedShape | qtWsdlConverter/sources/standardpath.cpp:285-394 | the source holds the parameter-dependent members iff there are parameters, setProtocol iff configurable, the debug dump iff debug mode, and every always-emitted member |
| MessagePlanner.HeaderAndSourceAgree | qtWsdlConverter/sources/standardpath.cpp:285-567 | leaving out the signal, the data members and the debug dump, the source defines exactly the members the header declares, in the same order |
| MessagePlanner.SendersCallables | qtWsdlConverter/sources/standardpath.cpp:358-394 | the debug dump is code inside sendMessage(), so the defined senders are sendMessage(), the overload if there are parameters, and the static sender |
| MessagePlanner.FieldsMatchParameters | qtWsdlConverter/sources/standardpath.cpp:225-233 | a parameter data member with name k and type ty is declared iff the parameter map holds k with type ty |
| MessagePlanner.PlanIgnoresCallStyle | qtWsdlConverter/sources/standardpath.cpp:171-200 | synchronousness and the build system do not change a message class |
| ServicePlanner.ClassName | qtWsdlConverter/sources/standardpath.cpp:627-632 | the facade is named after the requested base class name when one is given, else after the service |
| ServicePlanner.PlanService | qtWsdlConverter/sources/standardpath.cpp:776-881 | one call per method in key order: a blocking call to the method's class iff synchronous, else a forward to the instance named by the key, with the ", "-joined parameter names; getMethodNames lists the message names; no connections when synchronous, one per method when asynchronous, with slot "<op>Reply" iff the mode is not compact |
| ServicePlanner.FamiliesOf | qtWsdlConverter/sources/standardpath.cpp:663-938 | the header has one Send per method in key order, and one reply getter, slot, result field and owned instance per method iff asynchronous and not compact; the source has the sends, and getters and slots under the same condition |
| ServicePlanner.SendSignatures | qtWsdlConverter/sources/standardpath.cpp:663-688 | each `<op>Send` returns QString when synchronous and void when asynchronous, and takes the ", "-joined "type name" list of its method |
| ServicePlanner.FacadeMatchesMessages | qtWsdlConverter/sources/standardpath.cpp:858-871 | a synchronous `<op>Send` calls the static sender of the message class planned for that method, with the argument list that class forwards, and declares the parameter list that class declares |
| ServicePlanner.CompactAsyncDangling | qtWsdlConverter/sources/standardpath.cpp:798-815 | asynchronous compact mode forwards every call to an owned instance, connects with no slot name, and declares no owned instance |
| Entities.ReplaceAll | qtWsdlConverter/sources/standardpath.cpp:563-564 | a text without the pattern comes back unchanged, and the result is never longer when the replacement is no longer than the pattern |
| Entities.ReplaceRemoves | qtWsdlConverter/sources/standardpath.cpp:563-564 | replacing a pattern by a character it does not contain leaves no occurrence of the pattern |
| Entities.ReplacePreserves | qtWsdlConverter/sources/standardpath.cpp:563-564 | replacing by a character that another pattern lacks creates no occurrence of that other pattern |
| Entities.Unescape | qtWsdlConverter/sources/standardpath.cpp:559-567 | the result holds neither `&lt;` nor `&gt;`, is never longer than the input, and equals the input when it has no ampersand |
| Entities.UnescapeIdempotent | qtWsdlConverter/sources/standardpath.cpp:559-567 | unescaping twice is the same as unescaping once |
| Entities.UnescapeInvertsEscape | qtWsdlConverter/sources/standardpath.cpp:559-567 | unescaping undoes the escaping of `<` and `>` for any text without an ampersand |
| Entities.UnescapeExample | qtWsdlConverter/sources/standardpath.cpp:559-567 | `&lt;b&gt;` unescapes to `<b>` |
| ReplyExtraction.BeginIndex | qtWsdlConverter/sources/standardpath.cpp:500-502 | the start index is the end of the first opening tag, or the tag length minus one when there is no opening tag, so it is never below the tag length minus one and the `== -1` test cannot fire |
| ReplyExtraction.FinishIndex | qtWsdlConverter/sources/standardpath.cpp:504-510 | the finish index is the first closing tag at or after the start, or the text length when there is none |
| ReplyExtraction.ExtractReply | qtWsdlConverter/sources/standardpath.cpp:497-513 | the extracted reply holds neither entity |
| ReplyExtraction.ExtractBetweenMarkers | qtWsdlConverter/sources/standardpath.cpp:497-513 | with both markers present, the reply is exactly the unescaped text between the first opening tag and the first closing tag after it, and holds no closing tag itself |
| ReplyExtraction.ExtractToEnd | qtWsdlConverter/sources/standardpath.cpp:509-513 | with no closing tag after the opening tag, the reply runs to the end of the unescaped text |
| ReplyExtraction.ExtractWithoutOpenTag | qtWsdlConverter/sources/standardpath.cpp:500-513 | with no opening tag, the reply is cut from offset len(tag) - 1 up to the first closing tag from there or the end |
| ReplyExtraction.ReplyOfUnmarkedBody | qtWsdlConverter/sources/standardpath.cpp:500-513 | a body with no `&` and no `<` yields everything from offset len(tag) - 1, not an empty reply |
| ReplyExtraction.MissingOpenTagExample | qtWsdlConverter/sources/standardpath.cpp:500-513 | for message "getX", the body "abcdefghijklmnop" yields "lmnop" |
| ReplyExtraction.WrappedValue | qtWsdlConverter/sources/standardpath.cpp:497-513 | a value with no `<` wrapped in the markers, after a prefix with no `<`, is returned exactly, whatever follows |
| ReplyExtraction.EscapedWrappedValue | qtWsdlConverter/sources/standardpath.cpp:497-498 | markers written as entities are found too, because the whole body is unescaped before the search |
| RequestPayload.Payload | qtWsdlConverter/sources/standardpath.cpp:532-557 | under SOAP 1.2 the request is envelope header, operation element, envelope footer; otherwise just the operation element; there are no parameter elements |
| RequestPayload.PayloadIgnoresNamespace | qtWsdlConverter/sources/standardpath.cpp:544 | the target namespace never changes the request |
| RequestPayload.PayloadNamesOperation | qtWsdlConverter/sources/standardpath.cpp:544-554 | two operations with different names never produce the same request |
| MessageRuntime.SetProtocol | qtWsdlConverter/sources/standardpath.cpp:350-357 | setProtocol sets the protocol and changes nothing else |
| MessageRuntime.SetParams | qtWsdlConverter/sources/standardpath.cpp:339-348 | setParams binds the parameter values and changes nothing else |
| MessageRuntime.RequestIgnoresBoundParameters | qtWsdlConverter/sources/standardpath.cpp:546-552 | the request built after setParams is the one built before it |
| MessageRuntime.ReplyFinished | qtWsdlConverter/sources/standardpath.cpp:492-517 | the slot marks the reply received, stores the value it announces, leaves no entity in it, and changes nothing else |
| MessageRuntime.DefaultConstructed | qtWsdlConverter/sources/standardpath.cpp:285-303 | the default constructor names the message, sets `hostname` to the target namespace, leaves `targetNamespace` and the reply empty, binds no values, and its protocol literal reads back as the flags' protocol |
| MessageRuntime.ParamConstructed | qtWsdlConverter/sources/standardpath.cpp:305-331 | the parameterised constructor binds the given values and the flags' protocol, and leaves `messageName`, `hostname` and `targetNamespace` empty |
| MessageRuntime.ParamConstructedLosesName | qtWsdlConverter/sources/standardpath.cpp:305-331 | an object from the parameterised constructor posts the request for an empty operation name, extracts its reply as for an empty name, and so posts a different request from a default-constructed object whenever the method has a name |
| MessageRuntime.StaticSendStart | qtWsdlConverter/sources/standardpath.cpp:395-418 | the static sender's object has the static role, the method's name and the flags' protocol, and holds the arguments exactly when the method has parameters |
| MessageRuntime.StaticSendRequest | qtWsdlConverter/sources/standardpath.cpp:395-418 | the static sender posts the request of a default-constructed object of its class, named after the method; neither the arguments nor the role change it |
| MessageRuntime.StaticSendPoll | qtWsdlConverter/sources/standardpath.cpp:420-428 | one turn of the wait loop returns iff a reply was received, and then returns the stored reply |
| MessageRuntime.StaticSendReturnsAnnouncedReply | qtWsdlConverter/sources/standardpath.cpp:418-428 | after a reply is handled, the static sender returns exactly the reply that was extracted and announced |
| MessageRuntime.LatestReplyWins | qtWsdlConverter/sources/standardpath.cpp:492-517 | a second reply overwrites the first |
| Generation.EnterErrorState | qtWsdlConverter/sources/standardpath.cpp:40-47 | entering the error state sets it, extends the log by exactly the message and a space, and returns false |
| Generation.RunSteps | qtWsdlConverter/sources/standardpath.cpp:79-114 | a run succeeds iff no mandatory file is unwritable; the files attempted are a prefix of the schedule; a failed run stops at the first mandatory unwritable file |
| Generation.RunStepsLog | qtWsdlConverter/sources/standardpath.cpp:40-47 | after a run the error state is set iff it was set before or some attempted file was unwritable; the log only grows; a run that met no unwritable file leaves the generator unchanged |
| Generation.FailureStops | qtWsdlConverter/sources/standardpath.cpp:79-84 | a mandatory unwritable file fails the run, nothing after it is attempted, and the error state is set |
| Generation.Schedule | qtWsdlConverter/sources/standardpath.cpp:92-114 | the schedule writes every message header in key order, then every message source, then main.cpp, then the service files and the build file; every step but main.cpp is mandatory |
| Generation.Create | qtWsdlConverter/sources/standardpath.cpp:70-86 | the conversion succeeds iff no mandatory scheduled file is unwritable, and attempts a prefix of the schedule |
| Generation.AllWritable | qtWsdlConverter/sources/standardpath.cpp:70-86 | with every file writable, every scheduled file is written and no error is recorded |
| Generation.MainCppFailureSwallowed | qtWsdlConverter/sources/standardpath.cpp:104-113 | if only main.cpp is unwritable, and no class is named "main", the conversion reports success while the error state is set |
| Generation.MessageHeaderFailureStops | qtWsdlConverter/sources/standardpath.cpp:92-100 | an unwritable message header fails the conversion, nothing after it is attempted, and the error state is set |
| Generation.FirstHeaderFailureMessage | qtWsdlConverter/sources/standardpath.cpp:95-99 | if the first message header is unwritable, the log holds exactly the open error and the stage error, each followed by a space |

## Left out

- File and directory I/O (`QFile`, `QTextStream`, `QDir`) are left out. Whether a file can be opened is an input to `Generation.Create`.
- The literal source text is left out: include guards, `#include` lines, indentation and line endings. Members are tags, not text.
- The fixed enums and data members of the emitted headers are not tagged, because they never depend on the inputs: the `Role` and `Protocol` enums, `replyReceived`, `role`, `protocol`, `hostUrl`, `hostname`, `messageName`, `targetNamespace`, `reply`, `manager`, `networkReply` and `data` of a message class, and `errorState`, `hostUrl` and `hostname` of the facade. Only the parameter and reply data members of a message class, and the per-method result fields and instances of the facade, are tagged.
- Network transport and Qt signals are left out: `manager->post`, the `SOAPAction` header, `emit replyReady`, `emit errorEncountered` and `connect`. A reply arrives as its body text, and a connection is a record of its slot name.
- The busy-wait loop of the static `sendMessage` is left out, because it depends on the Qt event loop. One turn of it is `MessageRuntime.StaticSendPoll`.
- The contents of main.cpp and of the qmake project file are left out. Both are packaging with no logic. Their file steps are kept.
- The lower-casing of the owned instance names (`s.toLower()`) is left out. An instance is named by its method key.
- C++ `int` overflow of string indices is left out, because indices are unbounded here.
- Strings are sequences of characters. The UTF-16 representation of QString, the `QByteArray` conversions of the request and the reply, and codec settings are left out.
- `QStrings.Mid` takes a non-negative position, which is all the generated code passes. Negative positions are left out.
- `Entities.ReplaceAll` requires a non-empty pattern. The generated code only replaces `&lt;` and `&gt;`.
- `MessagePlanner.PlanMessage` requires a non-empty list of return names. The source calls `first()` on that list (line 127), which is undefined for an empty list.
- `Entities.Unescape`: the claim that unescaping "changes nothing else" is stated through `Entities.UnescapeInvertsEscape` for texts without an ampersand, not for arbitrary texts.
- `MessageRuntime.DefaultConstructed`, `MessageRuntime.ParamConstructed`: `manager`, `replyReceived`, `role` and, in the default constructor, the parameter data members (declared with their WSDL type names, so indeterminate for non-class types such as `int`) are not initialised by the generated constructors; `replyReceived` and `role` are parameters, `manager` is left out, and the default constructor's `params` being empty means only that no values are bound. `hostname` and `messageName` are empty after the parameterised constructor, so its request and reply markers use an empty name.
- `Generation.EnterErrorState`: the `qDebug()` print of the whole accumulated error message and the `errorEncountered` signal are left out, because both are output only; the model keeps the flag, the log and the result.
- The generated `getParameterNames` and `getParameterNamesTypes` bodies build a map from literal text; only their presence as members is modelled.

=== FILE: entities.dfy ===
/**
 * The `convertReplyToUtf` helper of every generated message class: it
 * replaces the predefined entities `&lt;` and `&gt;` of section 4.6 of
 * XML 1.0 by the characters they stand for, one entity after the other.
 */
module Entities {
  import opened QStrings

  const LtEntity: string := "&lt;"
  const GtEntity: string := "&gt;"

  /**
   * QString::replace(before, after): replaces every occurrence of `before`,
   * scanning left to right, matches never overlapping.
   */
  function ReplaceAll(s: string, before: string, after: string): (r: string)
    requires |before| > 0
    ensures !Contains(s, before) ==> r == s
    ensures |after| <= |before| ==> |r| <= |s|
    decreases |s|
  {
    if |s| == 0 then []
    else if before <= s then after + ReplaceAll(s[|before|..], before, after)
    else [s[0]] + ReplaceAll(s[1..], before, after)
  }

  /**
   * The generated `convertReplyToUtf`: `&lt;` becomes `<`, then `&gt;`
   * becomes `>`. Afterwards neither entity is left, and a text without an
   * ampersand comes back unchanged.
   */
  function Unescape(s: string): (r: string)
    ensures !Contains(r, LtEntity) && !Contains(r, GtEntity)
    ensures '&' !in s ==> r == s
    ensures |r| <= |s|
  {
    var t := ReplaceAll(s, LtEntity, "<");
    ReplaceRemoves(s, LtEntity, '<');
    ReplaceRemoves(t, GtEntity, '>');
    ReplacePreserves(t, GtEntity, '>', LtEntity);
    NoAmpersandNoEntity(s, LtEntity);
    NoAmpersandNoEntity(s, GtEntity);
    ReplaceAll(t, GtEntity, ">")
  }

  lemma {:induction false} NoAmpersandNoEntity(s: string, entity: string)
    requires |entity| > 0 && entity[0] == '&'
    ensures '&' !in s ==> !Contains(s, entity)
  {
    if |s| > 0 && '&' !in s {
      NoAmpersandNoEntity(s[1..], entity);
    }
  }

  /**
   * A prefix of a replacement result that avoids the one-character
   * replacement was copied unchanged from the input.
   */
  lemma {:induction false} PrefixSurvives(t: string, before: string, c: char, q: string)
    requires |before| > 0 && c !in q
    ensures q <= ReplaceAll(t, before, [c]) ==> q <= t
    decreases |t|
  {
    if |t| > 0 && |q| > 0 {
      var r := ReplaceAll(t, before, [c]);
      if before <= t {
        assert r[0] == c;
      } else {
        assert r == [t[0]] + ReplaceAll(t[1..], before, [c]);
        PrefixSurvives(t[1..], before, c, q[1..]);
        assert q == [q[0]] + q[1..];
        assert t == [t[0]] + t[1..];
      }
    }
  }

  /** Replacing by one character that `before` does not contain leaves no `before` behind. */
  lemma {:induction false} ReplaceRemoves(s: string, before: string, c: char)
    requires |before| > 0 && c !in before
    ensures !Contains(ReplaceAll(s, before, [c]), before)
    decreases |s|
  {
    var r := ReplaceAll(s, before, [c]);
    if |s| > 0 {
      if before <= s {
        ReplaceRemoves(s[|before|..], before, c);
        assert r[1..] == ReplaceAll(s[|before|..], before, [c]);
        assert r[0] == c;
      } else {
        ReplaceRemoves(s[1..], before, c);
        assert r[1..] == ReplaceAll(s[1..], before, [c]);
        PrefixSurvives(s[1..], before, c, before[1..]);
        assert before == [before[0]] + before[1..];
        assert s == [s[0]] + s[1..];
      }
    }
  }

  /** Replacing by a character that `q` does not contain creates no new `q`. */
  lemma {:induction false} ReplacePreserves(s: string, before: string, c: char, q: string)
    requires |before| > 0 && |q| > 0 && c !in q && !Contains(s, q)
    ensures !Contains(ReplaceAll(s, before, [c]), q)
    decreases |s|
  {
    var r := ReplaceAll(s, before, [c]);
    if |s| > 0 {
      if before <= s {
        ContainsSuffixContra(s, |before|, q);
        ReplacePreserves(s[|before|..], before, c, q);
        assert r[1..] == ReplaceAll(s[|before|..], before, [c]);
        assert r[0] == c;
      } else {
        ReplacePreserves(s[1..], before, c, q);
        assert r[1..] == ReplaceAll(s[1..], before, [c]);
        PrefixSurvives(s[1..], before, c, q[1..]);
        assert q == [q[0]] + q[1..];
        assert s == [s[0]] + s[1..];
      }
    }
  }

  lemma ContainsSuffixContra(s: string, k: nat, q: string)
    requires k <= |s| && !Contains(s, q)
    ensures !Contains(s[k..], q)
  {
    if Contains(s[k..], q) {
      ContainsSuffix(s, k, q);
    }
  }

  /** Unescaping an already unescaped text changes nothing. */
  lemma UnescapeIdempotent(s: string)
    ensures Unescape(Unescape(s)) == Unescape(s)
  {
  }

  // Reference partner: the escaping Unescape undoes.

  /** Writes `<` and `>` as their entities. */
  function Escape(t: string): string
  {
    if |t| == 0 then []
    else if t[0] == '<' then LtEntity + Escape(t[1..])
    else if t[0] == '>' then GtEntity + Escape(t[1..])
    else [t[0]] + Escape(t[1..])
  }

  /** Writes only `>` as its entity: Escape after the first pass of Unescape. */
  function EscapeGt(t: string): string
  {
    if |t| == 0 then []
    else if t[0] == '>' then GtEntity + EscapeGt(t[1..])
    else [t[0]] + EscapeGt(t[1..])
  }

  /** A character that cannot start a match is copied. */
  lemma ReplaceSkips(c: char, s: string, before: string, after: string)
    requires |before| > 0 && c != before[0]
    ensures ReplaceAll([c] + s, before, after) == [c] + ReplaceAll(s, before, after)
  {
    var x := [c] + s;
    assert x[0] == c && x[1..] == s;
  }

  lemma {:induction false} LtPassOfEscape(t: string)
    requires '&' !in t
    ensures ReplaceAll(Escape(t), LtEntity, "<") == EscapeGt(t)
  {
    if |t| > 0 {
      var rest := Escape(t[1..]);
      LtPassOfEscape(t[1..]);
      if t[0] == '<' {
        assert Escape(t) == LtEntity + rest;
        LtPassOnLt(rest);
      } else if t[0] == '>' {
        assert Escape(t) == GtEntity + rest;
        LtPassOnGt(rest);
      } else {
        assert Escape(t) == [t[0]] + rest;
        ReplaceSkips(t[0], rest, LtEntity, "<");
      }
    }
  }

  lemma LtPassOnLt(rest: string)
    ensures ReplaceAll(LtEntity + rest, LtEntity, "<") == "<" + ReplaceAll(rest, LtEntity, "<")
  {
    assert LtEntity <= LtEntity + rest;
    assert (LtEntity + rest)[|LtEntity|..] == rest;
  }

  /** Where no match starts, the first character is copied. */
  lemma ReplaceNoMatchHere(s: string, before: string, after: string)
    requires |before| > 0 && |s| > 0 && !(before <= s)
    ensures ReplaceAll(s, before, after) == [s[0]] + ReplaceAll(s[1..], before, after)
  {
  }

  /** Three characters none of which can start a match are copied. */
  lemma SkipThree(a: char, b: char, c: char, s: string, before: string, after: string)
    requires |before| > 0 && a != before[0] && b != before[0] && c != before[0]
    ensures ReplaceAll([a, b, c] + s, before, after) == [a, b, c] + ReplaceAll(s, before, after)
  {
    var r := ReplaceAll(s, before, after);
    ReplaceSkips(c, s, before, after);
    ReplaceSkips(b, [c] + s, before, after);
    ReplaceSkips(a, [b] + ([c] + s), before, after);
    AppendAssociative([b], [c], s);
    AppendAssociative([a], [b] + [c], s);
    AppendAssociative([b], [c], r);
    AppendAssociative([a], [b] + [c], r);
    assert [a] + ([b] + [c]) == [a, b, c];
  }

  lemma LtPassOnGt(rest: string)
    ensures ReplaceAll(GtEntity + rest, LtEntity, "<") == GtEntity + ReplaceAll(rest, LtEntity, "<")
  {
    var x := GtEntity + rest;
    var y := ['g', 't', ';'] + rest;
    assert x == ['&'] + y;
    assert x[1] == 'g';
    ReplaceNoMatchHere(x, LtEntity, "<");
    assert x[1..] == y;
    SkipThree('g', 't', ';', rest, LtEntity, "<");
    AppendAssociative(['&'], ['g', 't', ';'], ReplaceAll(rest, LtEntity, "<"));
    assert ['&'] + ['g', 't', ';'] == GtEntity;
  }

  lemma {:induction false} GtPassOfEscapeGt(t: string)
    requires '&' !in t
    ensures ReplaceAll(EscapeGt(t), GtEntity, ">") == t
  {
    if |t| > 0 {
      var rest := EscapeGt(t[1..]);
      GtPassOfEscapeGt(t[1..]);
      if t[0] == '>' {
        assert EscapeGt(t) == GtEntity + rest;
        assert GtEntity <= GtEntity + rest;
        assert (GtEntity + rest)[|GtEntity|..] == rest;
      } else {
        assert EscapeGt(t) == [t[0]] + rest;
        ReplaceSkips(t[0], rest, GtEntity, ">");
      }
      assert t == [t[0]] + t[1..];
    }
  }

  /** Unescape undoes Escape on any text without an ampersand. */
  lemma UnescapeInvertsEscape(t: string)
    requires '&' !in t
    ensures Unescape(Escape(t)) == t
  {
    LtPassOfEscape(t);
    GtPassOfEscapeGt(t);
  }

  /** For example, `&lt;b&gt;` unescapes to `<b>`. */
  lemma UnescapeExample()
    ensures Unescape("&lt;b&gt;") == "<b>"
  {
    assert Escape("<b>") == "&lt;b&gt;";
    UnescapeInvertsEscape("<b>");
  }
}

=== FILE: generation.dfy ===
/**
 * The generator's error state and the order in which `create` writes its
 * files. Whether a file can be opened for writing is an input (the set of
 * unwritable files); what gets written into a file is modelled elsewhere.
 */
module Generation {
  import opened Options
  import opened QMaps
  import opened Wsdl
  import opened Settings
  import ServicePlanner

  datatype Generator = Generator(errorState: bool, errorMessage: string)

  /** A freshly constructed generator: no error, empty message. */
  const Fresh: Generator := Generator(false, "")

  /**
   * Records an error: the generator enters the error state, the message and
   * a trailing space are appended to the accumulated text, and the caller
   * is told to fail.
   */
  function EnterErrorState(g: Generator, msg: string): (r: (Generator, bool))
    ensures r.0.errorState && !r.1
    ensures g.errorMessage < r.0.errorMessage
    ensures r.0.errorMessage[|g.errorMessage|..] == msg + " "
  {
    (Generator(true, g.errorMessage + msg + " "), false)
  }

  /** The three directories files are written to. */
  datatype Dir = WorkingDir | HeadersDir | SourcesDir

  datatype FileId = FileId(dir: Dir, name: string)

  /**
   * One file-writing step: the message logged when the file cannot be
   * opened, the message the calling stage adds before giving up, and
   * whether a failure aborts the run.
   */
  datatype Step = Step(file: FileId, openError: string, stageError: Option<string>, mandatory: bool)

  datatype Outcome = Outcome(gen: Generator, ok: bool, attempted: seq<FileId>)

  function FilesOf(steps: seq<Step>): (r: seq<FileId>)
    ensures |r| == |steps|
  {
    seq(|steps|, i requires 0 <= i < |steps| => steps[i].file)
  }

  /** Index of the first mandatory step whose file cannot be opened. */
  predicate FirstFailure(steps: seq<Step>, unwritable: set<FileId>, j: int)
  {
    0 <= j < |steps| && steps[j].mandatory && steps[j].file in unwritable &&
    forall i :: 0 <= i < j && steps[i].mandatory ==> steps[i].file !in unwritable
  }

  /**
   * Runs the steps in order. A file that cannot be opened is logged; a
   * mandatory one also stops the run, after the stage has logged its own
   * message.
   */
  function RunSteps(g: Generator, steps: seq<Step>, unwritable: set<FileId>): (r: Outcome)
    ensures r.ok <==> forall i :: 0 <= i < |steps| && steps[i].mandatory ==> steps[i].file !in unwritable
    ensures r.attempted <= FilesOf(steps)
    ensures r.ok ==> r.attempted == FilesOf(steps)
    ensures !r.ok ==> FirstFailure(steps, unwritable, |r.attempted| - 1)
    decreases |steps|
  {
    if |steps| == 0 then Outcome(g, true, [])
    else
      var s := steps[0];
      if s.file in unwritable && s.mandatory then
        var g1 := EnterErrorState(g, s.openError).0;
        var g2 := if s.stageError.Some? then EnterErrorState(g1, s.stageError.value).0 else g1;
        Outcome(g2, false, [s.file])
      else
        var g1 := if s.file in unwritable then EnterErrorState(g, s.openError).0 else g;
        var rest := RunSteps(g1, steps[1..], unwritable);
        assert FilesOf(steps) == [s.file] + FilesOf(steps[1..]);
        assert forall i :: 1 <= i < |steps| ==> steps[i] == steps[1..][i - 1];
        Outcome(rest.gen, rest.ok, [s.file] + rest.attempted)
  }

  /**
   * What a run leaves in the log: the error state is set exactly when some
   * attempted file could not be opened, the accumulated message only ever
   * grows, and a run that met no unwritable file leaves the generator as it was.
   */
  lemma {:induction false} RunStepsLog(g: Generator, steps: seq<Step>, unwritable: set<FileId>)
    ensures RunSteps(g, steps, unwritable).gen.errorState
        <==> g.errorState || exists x :: x in RunSteps(g, steps, unwritable).attempted && x in unwritable
    ensures g.errorMessage <= RunSteps(g, steps, unwritable).gen.errorMessage
    ensures (forall x :: x in RunSteps(g, steps, unwritable).attempted ==> x !in unwritable)
        ==> RunSteps(g, steps, unwritable).gen == g
    decreases |steps|
  {
    if |steps| > 0 {
      var s := steps[0];
      if !(s.file in unwritable && s.mandatory) {
        var g1 := if s.file in unwritable then EnterErrorState(g, s.openError).0 else g;
        RunStepsLog(g1, steps[1..], unwritable);
      }
    }
  }

  /** A failing mandatory first step logs its open error and its stage error, and nothing else. */
  lemma RunStepsFailingFirst(g: Generator, steps: seq<Step>, unwritable: set<FileId>)
    requires |steps| > 0 && steps[0].mandatory && steps[0].file in unwritable && steps[0].stageError.Some?
    ensures RunSteps(g, steps, unwritable).attempted == [steps[0].file]
    ensures RunSteps(g, steps, unwritable).gen.errorMessage
         == g.errorMessage + steps[0].openError + " " + steps[0].stageError.value + " "
  {
  }

  /** A mandatory step whose file cannot be opened ends the run there or earlier, in the error state. */
  lemma FailureStops(g: Generator, steps: seq<Step>, unwritable: set<FileId>, i: nat)
    requires i < |steps| && steps[i].mandatory && steps[i].file in unwritable
    ensures !RunSteps(g, steps, unwritable).ok
    ensures |RunSteps(g, steps, unwritable).attempted| <= i + 1
    ensures RunSteps(g, steps, unwritable).gen.errorState
  {
    var r := RunSteps(g, steps, unwritable);
    var j := |r.attempted| - 1;
    assert FirstFailure(steps, unwritable, j);
    assert r.attempted[j] == FilesOf(steps)[j] == steps[j].file;
    RunStepsLog(g, steps, unwritable);
  }

  function MessageHeaderStep(m: MethodDef): Step
  {
    Step(FileId(HeadersDir, m.name + ".h"), "Error: could not open message header file for writing.",
         Some("Creating header for message \"" + m.name + "\" failed!"), true)
  }

  function MessageSourceStep(m: MethodDef): Step
  {
    Step(FileId(SourcesDir, m.name + ".cpp"), "Error: could not open message source file for writing.",
         Some("Creating source for message \"" + m.name + "\" failed!"), true)
  }

  /** main.cpp: its failure is logged, with the service header's wording, and then ignored. */
  const MainCppStep: Step :=
    Step(FileId(SourcesDir, "main.cpp"), "Error: could not open Web Service header file for writing.", None, false)

  /** The service files are named after the class, the stage messages after the service. */
  function ServiceSteps(className: string, serviceName: string): seq<Step>
  {
    [Step(FileId(HeadersDir, className + ".h"), "Error: could not open Web Service header file for writing.",
          Some("Creating header for Web Service \"" + serviceName + "\" failed!"), true),
     Step(FileId(SourcesDir, className + ".cpp"), "Error: could not open Web Service source file for writing.",
          Some("Creating source for Web Service \"" + serviceName + "\" failed!"), true)]
  }

  /** Only qmake produces a build file; its failure adds no stage message. */
  function BuildSteps(b: BuildSystem, className: string): seq<Step>
  {
    match b
    case QMake => [Step(FileId(WorkingDir, className + ".pro"), "Error: could not open Web Service .pro file for writing.", None, true)]
    case NoBuildSystem => []
  }

  /** One header step per method, in key order. */
  function HeaderSteps(methods: QMap<MethodDef>): (r: seq<Step>)
    ensures |r| == |methods|
    ensures forall i :: 0 <= i < |methods| ==> r[i] == MessageHeaderStep(methods[i].value)
  {
    seq(|methods|, i requires 0 <= i < |methods| => MessageHeaderStep(methods[i].value))
  }

  /** One source step per method, in key order. */
  function SourceSteps(methods: QMap<MethodDef>): (r: seq<Step>)
    ensures |r| == |methods|
    ensures forall i :: 0 <= i < |methods| ==> r[i] == MessageSourceStep(methods[i].value)
  {
    seq(|methods|, i requires 0 <= i < |methods| => MessageSourceStep(methods[i].value))
  }

  /** Where the step at index `i` of the schedule comes from. */
  lemma LayoutAt(methods: QMap<MethodDef>, rest: seq<Step>, i: nat)
    requires i < 2 * |methods| + |rest|
    ensures var r := HeaderSteps(methods) + SourceSteps(methods) + rest;
      r[i] == if i < |methods| then MessageHeaderStep(methods[i].value)
              else if i < 2 * |methods| then MessageSourceStep(methods[i - |methods|].value)
              else rest[i - 2 * |methods|]
  {
    var front := HeaderSteps(methods) + SourceSteps(methods);
    if i < 2 * |methods| {
      assert (front + rest)[i] == front[i];
    }
  }

  lemma LayoutHeaders(methods: QMap<MethodDef>, rest: seq<Step>)
    ensures forall i :: 0 <= i < |methods| ==>
      (HeaderSteps(methods) + SourceSteps(methods) + rest)[i] == MessageHeaderStep(methods[i].value)
  {
    forall i | 0 <= i < |methods|
      ensures (HeaderSteps(methods) + SourceSteps(methods) + rest)[i] == MessageHeaderStep(methods[i].value)
    {
      LayoutAt(methods, rest, i);
    }
  }

  lemma LayoutSources(methods: QMap<MethodDef>, rest: seq<Step>)
    ensures forall i :: 0 <= i < |methods| ==>
      (HeaderSteps(methods) + SourceSteps(methods) + rest)[|methods| + i] == MessageSourceStep(methods[i].value)
  {
    forall i | 0 <= i < |methods|
      ensures (HeaderSteps(methods) + SourceSteps(methods) + rest)[|methods| + i] == MessageSourceStep(methods[i].value)
    {
      LayoutAt(methods, rest, |methods| + i);
    }
  }

  lemma LayoutTail(methods: QMap<MethodDef>, rest: seq<Step>)
    ensures forall i :: 2 * |methods| <= i < 2 * |methods| + |rest| ==>
      (HeaderSteps(methods) + SourceSteps(methods) + rest)[i] == rest[i - 2 * |methods|]
  {
    forall i | 2 * |methods| <= i < 2 * |methods| + |rest|
      ensures (HeaderSteps(methods) + SourceSteps(methods) + rest)[i] == rest[i - 2 * |methods|]
    {
      LayoutAt(methods, rest, i);
    }
  }

  /** Every step but main.cpp is mandatory. */
  lemma LayoutMandatory(methods: QMap<MethodDef>, rest: seq<Step>)
    requires forall i :: 0 < i < |rest| ==> rest[i].mandatory
    ensures forall i :: 0 <= i < 2 * |methods| + |rest| && i != 2 * |methods| ==>
      (HeaderSteps(methods) + SourceSteps(methods) + rest)[i].mandatory
  {
    forall i | 0 <= i < 2 * |methods| + |rest| && i != 2 * |methods|
      ensures (HeaderSteps(methods) + SourceSteps(methods) + rest)[i].mandatory
    {
      LayoutAt(methods, rest, i);
    }
  }

  /** main.cpp, then the service files and the build file, all of these mandatory. */
  function TailOf(className: string, serviceName: string, b: BuildSystem): (r: seq<Step>)
    ensures |r| == 3 + (if b == QMake then 1 else 0) && r[0] == MainCppStep
    ensures forall i :: 0 < i < |r| ==> r[i].mandatory
  {
    [MainCppStep] + ServiceSteps(className, serviceName) + BuildSteps(b, className)
  }

  /** Unless the class is called "main", no step after main.cpp writes main.cpp again. */
  lemma TailAvoidsMainCpp(className: string, serviceName: string, b: BuildSystem, j: nat)
    requires className != "main" && 0 < j < |TailOf(className, serviceName, b)|
    ensures TailOf(className, serviceName, b)[j].file != MainCppStep.file
  {
    OtherSourceIsNotMainCpp(className);
  }

  /**
   * Every file `create` tries to write, in order: message headers and then
   * message sources in ascending key order, main.cpp, the service header
   * and source, and the build file.
   */
  function Schedule(methods: QMap<MethodDef>, f: Flags, baseClassName: string, serviceName: string): (r: seq<Step>)
    ensures |r| == 2 * |methods| + 3 + (if f.buildSystem == QMake then 1 else 0)
    ensures forall i :: 0 <= i < |methods| ==> r[i] == MessageHeaderStep(methods[i].value)
    ensures forall i :: 0 <= i < |methods| ==> r[|methods| + i] == MessageSourceStep(methods[i].value)
    ensures r[2 * |methods|] == MainCppStep
    ensures forall i :: 0 <= i < |r| && i != 2 * |methods| ==> r[i].mandatory
    ensures forall i :: 2 * |methods| <= i < |r| ==>
      r[i] == TailOf(ServicePlanner.ClassName(baseClassName, serviceName), serviceName, f.buildSystem)[i - 2 * |methods|]
  {
    var className := ServicePlanner.ClassName(baseClassName, serviceName);
    var headers := HeaderSteps(methods);
    var sources := SourceSteps(methods);
    var rest := TailOf(className, serviceName, f.buildSystem);
    LayoutHeaders(methods, rest);
    LayoutSources(methods, rest);
    LayoutTail(methods, rest);
    LayoutMandatory(methods, rest);
    headers + sources + rest
  }

  /** The conversion: a fresh generator runs the schedule. */
  function Create(methods: QMap<MethodDef>, f: Flags, baseClassName: string, serviceName: string,
                  unwritable: set<FileId>): (r: Outcome)
    ensures r.ok <==> forall i :: (0 <= i < |Schedule(methods, f, baseClassName, serviceName)| &&
      Schedule(methods, f, baseClassName, serviceName)[i].mandatory) ==>
      Schedule(methods, f, baseClassName, serviceName)[i].file !in unwritable
    ensures r.attempted <= FilesOf(Schedule(methods, f, baseClassName, serviceName))
  {
    RunSteps(Fresh, Schedule(methods, f, baseClassName, serviceName), unwritable)
  }

  /** With every file writable, everything is written and no error is recorded. */
  lemma AllWritable(methods: QMap<MethodDef>, f: Flags, baseClassName: string, serviceName: string)
    ensures Create(methods, f, baseClassName, serviceName, {}).ok
    ensures Create(methods, f, baseClassName, serviceName, {}).attempted == FilesOf(Schedule(methods, f, baseClassName, serviceName))
    ensures Create(methods, f, baseClassName, serviceName, {}).gen == Fresh
  {
    RunStepsLog(Fresh, Schedule(methods, f, baseClassName, serviceName), {});
  }

  lemma OtherSourceIsNotMainCpp(name: string)
    requires name != "main"
    ensures FileId(SourcesDir, name + ".cpp") != MainCppStep.file
  {
    if |name| == 4 {
      assert (name + ".cpp")[..4] == name;
      assert "main.cpp"[..4] == "main";
    }
  }

  /** No mandatory step writes main.cpp unless a message or the class is called "main". */
  lemma MandatoryStepAvoidsMainCpp(methods: QMap<MethodDef>, f: Flags, baseClassName: string, serviceName: string, i: nat)
    requires forall j :: 0 <= j < |methods| ==> methods[j].value.name != "main"
    requires ServicePlanner.ClassName(baseClassName, serviceName) != "main"
    requires i < |Schedule(methods, f, baseClassName, serviceName)|
    requires Schedule(methods, f, baseClassName, serviceName)[i].mandatory
    ensures Schedule(methods, f, baseClassName, serviceName)[i].file != MainCppStep.file
  {
    var steps := Schedule(methods, f, baseClassName, serviceName);
    if i < |methods| {
      assert steps[i].file.dir == HeadersDir;
    } else if i < 2 * |methods| {
      var e := methods[i - |methods|].value;
      assert steps[i].file == FileId(SourcesDir, e.name + ".cpp");
      OtherSourceIsNotMainCpp(e.name);
    } else {
      var className := ServicePlanner.ClassName(baseClassName, serviceName);
      TailAvoidsMainCpp(className, serviceName, f.buildSystem, i - 2 * |methods|);
    }
  }

  /**
   * A main.cpp that cannot be written is logged but does not fail the
   * conversion: create still reports success, with the generator in the
   * error state.
   */
  lemma MainCppFailureSwallowed(methods: QMap<MethodDef>, f: Flags, baseClassName: string, serviceName: string)
    requires forall i :: 0 <= i < |methods| ==> methods[i].value.name != "main"
    requires ServicePlanner.ClassName(baseClassName, serviceName) != "main"
    ensures Create(methods, f, baseClassName, serviceName, {MainCppStep.file}).ok
    ensures Create(methods, f, baseClassName, serviceName, {MainCppStep.file}).gen.errorState
  {
    var steps := Schedule(methods, f, baseClassName, serviceName);
    var r := Create(methods, f, baseClassName, serviceName, {MainCppStep.file});
    forall i | 0 <= i < |steps| && steps[i].mandatory
      ensures steps[i].file !in {MainCppStep.file}
    {
      MandatoryStepAvoidsMainCpp(methods, f, baseClassName, serviceName, i);
    }
    assert r.attempted == FilesOf(steps);
    assert r.attempted[2 * |methods|] in {MainCppStep.file};
    RunStepsLog(Fresh, steps, {MainCppStep.file});
  }

  /**
   * A message header that cannot be written stops the conversion there:
   * nothing after it is attempted, so no source and no service file.
   */
  lemma MessageHeaderFailureStops(methods: QMap<MethodDef>, f: Flags, baseClassName: string, serviceName: string,
                                  unwritable: set<FileId>, i: nat)
    requires i < |methods| && MessageHeaderStep(methods[i].value).file in unwritable
    ensures !Create(methods, f, baseClassName, serviceName, unwritable).ok
    ensures |Create(methods, f, baseClassName, serviceName, unwritable).attempted| <= i + 1
    ensures Create(methods, f, baseClassName, serviceName, unwritable).gen.errorState
  {
    var steps := Schedule(methods, f, baseClassName, serviceName);
    assert steps[i].mandatory && steps[i].file in unwritable;
    FailureStops(Fresh, steps, unwritable, i);
  }

  /**
   * When the first message's header cannot be written, the log holds
   * exactly the open error and the stage error, each followed by a space.
   */
  lemma FirstHeaderFailureMessage(methods: QMap<MethodDef>, f: Flags, baseClassName: string, serviceName: string,
                                  unwritable: set<FileId>)
    requires |methods| > 0 && MessageHeaderStep(methods[0].value).file in unwritable
    ensures Create(methods, f, baseClassName, serviceName, unwritable).gen.errorMessage
         == "Error: could not open message header file for writing." + " "
            + ("Creating header for message \"" + methods[0].value.name + "\" failed!") + " "
  {
    var steps := Schedule(methods, f, baseClassName, serviceName);
    RunStepsFailingFirst(Fresh, steps, unwritable);
    assert Fresh.errorMessage + steps[0].openError == steps[0].openError;
  }
}

=== FILE: message_planner.dfy ===
/**
 * Which members the generated message class gets, in the order the header
 * declares them and the order the source defines them. The emitted text
 * itself is not modelled, only the member plan and the lists spliced into
 * the signatures.
 */
module MessagePlanner {
  import opened Options
  import opened QStrings
  import opened QMaps
  import opened Wsdl
  import opened Settings
  import opened Signatures

  datatype MessageMember =
    | DefaultCtor | ParamCtor | Dtor | SetParams | SetProtocol
    | Send0 | SendN | StaticSend
    | ReplyRead | GetMessageName | GetParameterNames | GetReturnValueName
    | GetParameterNamesTypes | GetReturnValueNameType | GetTargetNamespace
    | ReplyReadySignal | ReplyFinishedSlot | PrepareRequestData | ConvertReplyToUtf
    | DebugDump                                  // the qDebug lines inside sendMessage()
    | ParamField(name: string, typeName: string) // one data member per parameter
    | ReplyField(name: string, typeName: string) // the data member named after the reply

  datatype MessagePlan = MessagePlan(
    className: string,
    parameters: string,            // "type name, ..." spliced into signatures
    arguments: string,             // "name, ..." the static sender passes to setParams
    replyName: string,
    replyType: string,
    protocolLiteral: string,       // what the constructors assign to `protocol`
    declared: seq<MessageMember>,  // the header, in emission order
    defined: seq<MessageMember>)   // the source, in emission order

  /** The members every message class gets, whatever the method and flags. */
  const AlwaysEmitted: set<MessageMember> :=
    {DefaultCtor, Dtor, SetParams, Send0, StaticSend, ReplyRead, GetMessageName,
     GetParameterNames, GetReturnValueName, GetParameterNamesTypes,
     GetReturnValueNameType, GetTargetNamespace, ReplyFinishedSlot,
     PrepareRequestData, ConvertReplyToUtf}

  function When(c: bool, t: MessageMember): seq<MessageMember>
  {
    if c then [t] else []
  }

  /** Constructors, destructor and setters. */
  function Lifecycle(hasParams: bool, configurable: bool): seq<MessageMember>
  {
    [DefaultCtor] + When(hasParams, ParamCtor) + [Dtor, SetParams] + When(configurable, SetProtocol)
  }

  lemma LifecycleMembers(hasParams: bool, configurable: bool)
    ensures ParamCtor in Lifecycle(hasParams, configurable) <==> hasParams
    ensures SetProtocol in Lifecycle(hasParams, configurable) <==> configurable
    ensures SendN !in Lifecycle(hasParams, configurable) && DebugDump !in Lifecycle(hasParams, configurable)
    ensures forall k, ty :: ParamField(k, ty) !in Lifecycle(hasParams, configurable)
    ensures DefaultCtor in Lifecycle(hasParams, configurable)
    ensures Dtor in Lifecycle(hasParams, configurable) && SetParams in Lifecycle(hasParams, configurable)
  {
  }

  /** The three sendMessage flavours; the debug dump sits inside the first. */
  function Senders(hasParams: bool, debugDump: bool): seq<MessageMember>
  {
    [Send0] + When(debugDump, DebugDump) + When(hasParams, SendN) + [StaticSend]
  }

  lemma SendersMembers(hasParams: bool, debugDump: bool)
    ensures SendN in Senders(hasParams, debugDump) <==> hasParams
    ensures DebugDump in Senders(hasParams, debugDump) <==> debugDump
    ensures ParamCtor !in Senders(hasParams, debugDump) && SetProtocol !in Senders(hasParams, debugDump)
    ensures forall k, ty :: ParamField(k, ty) !in Senders(hasParams, debugDump)
    ensures Send0 in Senders(hasParams, debugDump) && StaticSend in Senders(hasParams, debugDump)
  {
  }

  const Accessors: seq<MessageMember> :=
    [ReplyRead, GetMessageName, GetParameterNames, GetReturnValueName,
     GetParameterNamesTypes, GetReturnValueNameType, GetTargetNamespace]

  const Handlers: seq<MessageMember> := [ReplyFinishedSlot, PrepareRequestData, ConvertReplyToUtf]

  /** None of the optional members is among the fixed accessors and slots. */
  lemma FixedPartsLackOptional()
    ensures forall t :: t in Accessors + [ReplyReadySignal] + Handlers ==> Callable(t) || t == ReplyReadySignal
    ensures forall t :: t in Accessors + [ReplyReadySignal] + Handlers ==> t !in {ParamCtor, SendN, SetProtocol}
  {
  }

  function ParamFields(ps: QMap<Variant>): (r: seq<MessageMember>)
    ensures forall i :: 0 <= i < |r| ==> r[i].ParamField?
  {
    seq(|ps|, i requires 0 <= i < |ps| => ParamField(ps[i].key, ps[i].value.typeName))
  }

  /** Members that have a body in the source file. */
  predicate Callable(t: MessageMember)
  {
    !(t.ParamField? || t.ReplyField? || t == ReplyReadySignal || t == DebugDump)
  }

  function Callables(ts: seq<MessageMember>): (r: seq<MessageMember>)
  {
    if |ts| == 0 then []
    else if Callable(ts[0]) then [ts[0]] + Callables(ts[1..])
    else Callables(ts[1..])
  }

  lemma {:induction false} CallablesAppend(a: seq<MessageMember>, b: seq<MessageMember>)
    ensures Callables(a + b) == Callables(a) + Callables(b)
  {
    if |a| == 0 {
      assert a + b == b;
    } else {
      assert (a + b)[0] == a[0];
      assert (a + b)[1..] == a[1..] + b;
      CallablesAppend(a[1..], b);
    }
  }

  lemma {:induction false} CallablesKeepsOnlyCallable(ts: seq<MessageMember>, t: MessageMember)
    ensures t in Callables(ts) <==> t in ts && Callable(t)
  {
    if |ts| > 0 {
      CallablesKeepsOnlyCallable(ts[1..], t);
      assert ts == [ts[0]] + ts[1..];
    }
  }

  /** The members every message class gets are found in these three pieces. */
  lemma AlwaysEmittedCovered(front: seq<MessageMember>, back: seq<MessageMember>)
    requires DefaultCtor in front && Dtor in front && SetParams in front
    requires Send0 in front && StaticSend in front
    requires ReplyFinishedSlot in back && PrepareRequestData in back && ConvertReplyToUtf in back
    ensures forall t :: t in AlwaysEmitted ==> t in front + Accessors + back
  {
  }

  /**
   * Which optional members a member list holds, and that it holds every
   * member emitted unconditionally.
   */
  predicate Shape(r: seq<MessageMember>, hasParams: bool, configurable: bool, debugDump: bool)
  {
    (ParamCtor in r <==> hasParams) && (SendN in r <==> hasParams) &&
    (SetProtocol in r <==> configurable) && (DebugDump in r <==> debugDump) &&
    forall t :: t in AlwaysEmitted ==> t in r
  }

  /** The shape is settled by the lifecycle and sender pieces; what follows adds no optional member. */
  lemma ShapeOf(hasParams: bool, configurable: bool, debugDump: bool, back: seq<MessageMember>)
    requires ReplyFinishedSlot in back && PrepareRequestData in back && ConvertReplyToUtf in back
    requires ParamCtor !in back && SendN !in back && SetProtocol !in back && DebugDump !in back
    ensures Shape(Lifecycle(hasParams, configurable) + Senders(hasParams, debugDump) + Accessors + back,
                  hasParams, configurable, debugDump)
  {
    var front := Lifecycle(hasParams, configurable) + Senders(hasParams, debugDump);
    LifecycleMembers(hasParams, configurable);
    SendersMembers(hasParams, debugDump);
    AlwaysEmittedCovered(front, back);
    FixedPartsLackOptional();
    assert forall t :: t in Accessors ==> t in Accessors + [ReplyReadySignal] + Handlers;
  }

  /** The header: members, then the signal, the slots and the parameter and reply data members. */
  function Declared(hasParams: bool, configurable: bool, fields: seq<MessageMember>): seq<MessageMember>
  {
    Lifecycle(hasParams, configurable) + Senders(hasParams, false) + Accessors + ([ReplyReadySignal] + Handlers + fields)
  }

  lemma DeclaredShape(hasParams: bool, configurable: bool, fields: seq<MessageMember>)
    requires forall i :: 0 <= i < |fields| ==> fields[i].ParamField? || fields[i].ReplyField?
    ensures Shape(Declared(hasParams, configurable, fields), hasParams, configurable, false)
  {
    var back := [ReplyReadySignal] + Handlers + fields;
    assert ParamCtor !in back && SendN !in back && SetProtocol !in back && DebugDump !in back by {
      assert ParamCtor !in fields && SendN !in fields && SetProtocol !in fields && DebugDump !in fields;
    }
    ShapeOf(hasParams, configurable, false, back);
  }

  /** The only parameter data members in the header are the given ones. */
  lemma DeclaredFields(hasParams: bool, configurable: bool, fields: seq<MessageMember>, k: string, ty: string)
    requires forall i :: 0 <= i < |fields| ==> fields[i].ParamField? || fields[i].ReplyField?
    ensures ParamField(k, ty) in Declared(hasParams, configurable, fields) <==> ParamField(k, ty) in fields
  {
    var t := ParamField(k, ty);
    LifecycleMembers(hasParams, configurable);
    SendersMembers(hasParams, false);
    assert t !in Accessors && t !in [ReplyReadySignal] + Handlers;
  }

  /** The source: the same members in the same order, less signal and data members. */
  function Defined(hasParams: bool, configurable: bool, debugDump: bool): seq<MessageMember>
  {
    Lifecycle(hasParams, configurable) + Senders(hasParams, debugDump) + Accessors + Handlers
  }

  lemma DefinedShape(hasParams: bool, configurable: bool, debugDump: bool)
    ensures Shape(Defined(hasParams, configurable, debugDump), hasParams, configurable, debugDump)
  {
    ShapeOf(hasParams, configurable, debugDump, Handlers);
  }

  /**
   * The plan for one method. Parameter-dependent members hinge on the
   * parameter list being non-empty, setProtocol on the mode not being
   * compact, and the debug dump on debug mode.
   */
  function PlanMessage(m: MethodDef, f: Flags): (p: MessagePlan)
    requires |m.returnNames| > 0
    ensures p.className == m.name
    ensures p.parameters == Join(", ", Declarations(m.params))
    ensures p.arguments == Join(", ", Keys(m.params))
    ensures p.replyName == m.returnNames[0]
    ensures |m.results| > 0 ==> p.replyType == m.results[0].value.typeName
    ensures |m.results| == 0 ==> p.replyType == []
    ensures ParseProtocol(p.protocolLiteral) == Some(f.protocol)
    ensures ParamCtor in p.declared <==> |m.params| > 0
    ensures ParamCtor in p.defined <==> |m.params| > 0
    ensures SendN in p.declared <==> |m.params| > 0
    ensures SendN in p.defined <==> |m.params| > 0
    ensures SetProtocol in p.declared <==> f.mode != Compact
    ensures SetProtocol in p.defined <==> f.mode != Compact
    ensures DebugDump in p.defined <==> f.mode == Debug
    ensures DebugDump !in p.declared
    ensures forall t :: t in AlwaysEmitted ==> t in p.declared && t in p.defined
    ensures ReplyField(p.replyName, p.replyType) in p.declared
  {
    var parameters := ParamList(m.params);
    var hasParams := parameters != "";
    var configurable := f.mode != Compact;
    var replyName := ReplyName(m.returnNames);
    var replyType := ReplyType(m.results);
    ProtocolLiteralRoundTrip(f.protocol);
    DeclaredShape(hasParams, configurable, ParamFields(m.params) + [ReplyField(replyName, replyType)]);
    DefinedShape(hasParams, configurable, f.mode == Debug);
    MessagePlan(
      m.name, parameters, ArgList(m.params), replyName, replyType, ProtocolLiteral(f.protocol),
      Declared(hasParams, configurable, ParamFields(m.params) + [ReplyField(replyName, replyType)]),
      Defined(hasParams, configurable, f.mode == Debug))
  }

  lemma {:induction false} CallablesOfCallable(ts: seq<MessageMember>)
    requires forall i :: 0 <= i < |ts| ==> Callable(ts[i])
    ensures Callables(ts) == ts
  {
    if |ts| > 0 {
      CallablesOfCallable(ts[1..]);
    }
  }

  lemma {:induction false} CallablesOfNone(ts: seq<MessageMember>)
    requires forall i :: 0 <= i < |ts| ==> !Callable(ts[i])
    ensures Callables(ts) == []
  {
    if |ts| > 0 {
      CallablesOfNone(ts[1..]);
    }
  }

  /** The debug dump is code inside sendMessage(), not a member of its own. */
  lemma SendersCallables(hasParams: bool, debugDump: bool)
    ensures Callables(Senders(hasParams, debugDump)) == [Send0] + When(hasParams, SendN) + [StaticSend]
  {
    var front := [Send0] + When(debugDump, DebugDump);
    var tail := When(hasParams, SendN) + [StaticSend];
    AppendAssociative(front, When(hasParams, SendN), [StaticSend]);
    AppendAssociative([Send0], When(hasParams, SendN), [StaticSend]);
    assert Callables(front) == [Send0] by {
      CallablesAppend([Send0], When(debugDump, DebugDump));
      CallablesOfNone(When(debugDump, DebugDump));
      CallablesOfCallable([Send0]);
      assert [Send0] + [] == [Send0];
    }
    assert Callables(tail) == tail by {
      CallablesOfCallable(tail);
    }
    CallablesAppend(front, tail);
  }

  /** Dropping the non-callable members of the shared prefix. */
  lemma PrefixCallables(hasParams: bool, configurable: bool, debugDump: bool)
    ensures Callables(Lifecycle(hasParams, configurable) + Senders(hasParams, debugDump) + Accessors)
         == Callables(Lifecycle(hasParams, configurable)) + ([Send0] + When(hasParams, SendN) + [StaticSend]) + Accessors
  {
    var lifecycle := Lifecycle(hasParams, configurable);
    var senders := Senders(hasParams, debugDump);
    assert Callables(lifecycle + senders) == Callables(lifecycle) + ([Send0] + When(hasParams, SendN) + [StaticSend]) by {
      CallablesAppend(lifecycle, senders);
      SendersCallables(hasParams, debugDump);
    }
    assert Callables(Accessors) == Accessors by {
      CallablesOfCallable(Accessors);
    }
    CallablesAppend(lifecycle + senders, Accessors);
  }

  /** The signal and the data members at the end of the header have no body. */
  lemma HeaderTailCallables(prefix: seq<MessageMember>, fields: seq<MessageMember>)
    requires forall i :: 0 <= i < |fields| ==> fields[i].ParamField? || fields[i].ReplyField?
    ensures Callables(prefix + ([ReplyReadySignal] + Handlers + fields)) == Callables(prefix) + Handlers
  {
    var back := Handlers + fields;
    AppendAssociative([ReplyReadySignal], Handlers, fields);
    assert Callables([ReplyReadySignal] + back) == Callables(back) by {
      NonCallableHead(ReplyReadySignal, back);
    }
    assert Callables(back) == Handlers by {
      CallablesOfNone(fields);
      CallableTail([], Handlers);
      CallablesAppend(Handlers, fields);
      assert [] + Handlers == Handlers && Handlers + [] == Handlers;
    }
    CallablesAppend(prefix, [ReplyReadySignal] + back);
  }

  lemma NonCallableHead(t: MessageMember, rest: seq<MessageMember>)
    requires !Callable(t)
    ensures Callables([t] + rest) == Callables(rest)
  {
    assert ([t] + rest)[0] == t && ([t] + rest)[1..] == rest;
  }

  lemma DefinedCallables(hasParams: bool, configurable: bool, debugDump: bool)
    ensures Callables(Defined(hasParams, configurable, debugDump))
         == Callables(Lifecycle(hasParams, configurable) + Senders(hasParams, debugDump) + Accessors) + Handlers
  {
    var prefix := Lifecycle(hasParams, configurable) + Senders(hasParams, debugDump) + Accessors;
    assert Defined(hasParams, configurable, debugDump) == prefix + Handlers;
    CallableTail(prefix, Handlers);
  }

  lemma CallableTail(prefix: seq<MessageMember>, tail: seq<MessageMember>)
    requires forall i :: 0 <= i < |tail| ==> Callable(tail[i])
    ensures Callables(prefix + tail) == Callables(prefix) + tail
  {
    CallablesOfCallable(tail);
    CallablesAppend(prefix, tail);
  }

  /** How the header and the source of a plan are assembled. */
  lemma PlanAssembly(m: MethodDef, f: Flags)
    requires |m.returnNames| > 0
    ensures var p := PlanMessage(m, f);
      p.declared == Declared(p.parameters != "", f.mode != Compact,
                             ParamFields(m.params) + [ReplyField(p.replyName, p.replyType)])
    ensures var p := PlanMessage(m, f);
      p.defined == Defined(p.parameters != "", f.mode != Compact, f.mode == Debug)
  {
  }

  /**
   * Header and source agree: leaving out the signal, the data members and
   * the debug dump, the source defines exactly the members the header
   * declares, in the same order.
   */
  lemma HeaderAndSourceAgree(m: MethodDef, f: Flags)
    requires |m.returnNames| > 0
    ensures Callables(PlanMessage(m, f).declared) == Callables(PlanMessage(m, f).defined)
  {
    var p := PlanMessage(m, f);
    PlanAssembly(m, f);
    DeclaredDefinedAgree(p.parameters != "", f.mode != Compact, f.mode == Debug, m.params, p.replyName, p.replyType);
  }

  lemma DeclaredDefinedAgree(hasParams: bool, configurable: bool, debugDump: bool, ps: QMap<Variant>,
                             replyName: string, replyType: string)
    ensures var fields := ParamFields(ps) + [ReplyField(replyName, replyType)];
      Callables(Declared(hasParams, configurable, fields)) == Callables(Defined(hasParams, configurable, debugDump))
  {
    var fields := ParamFields(ps) + [ReplyField(replyName, replyType)];
    var prefix := Lifecycle(hasParams, configurable) + Senders(hasParams, false) + Accessors;
    HeaderTailCallables(prefix, fields);
    DefinedCallables(hasParams, configurable, debugDump);
    PrefixCallables(hasParams, configurable, false);
    PrefixCallables(hasParams, configurable, debugDump);
  }

  /** The data member generated for a parameter carries that parameter's type. */
  lemma ParamFieldsMatch(ps: QMap<Variant>, k: string, ty: string)
    ensures ParamField(k, ty) in ParamFields(ps) <==> Get(ps, k).Some? && Get(ps, k).value.typeName == ty
  {
    var fields := ParamFields(ps);
    if ParamField(k, ty) in fields {
      var i :| 0 <= i < |ps| && fields[i] == ParamField(k, ty);
      GetAt(ps, i);
    }
    if Get(ps, k).Some? && Get(ps, k).value.typeName == ty {
      GetNone(ps, k);
      var i :| 0 <= i < |ps| && ps[i].key == k;
      GetAt(ps, i);
      assert fields[i] == ParamField(k, ty);
    }
  }

  lemma HeaderFieldsMatch(hasParams: bool, configurable: bool, ps: QMap<Variant>,
                          replyName: string, replyType: string, k: string, ty: string)
    ensures ParamField(k, ty) in Declared(hasParams, configurable, ParamFields(ps) + [ReplyField(replyName, replyType)])
        <==> Get(ps, k).Some? && Get(ps, k).value.typeName == ty
  {
    var fields := ParamFields(ps) + [ReplyField(replyName, replyType)];
    DeclaredFields(hasParams, configurable, fields, k, ty);
    ParamFieldsMatch(ps, k, ty);
    assert ParamField(k, ty) in fields <==> ParamField(k, ty) in ParamFields(ps);
  }

  /**
   * Each parameter gets exactly one data member of its declared type, and
   * no other parameter-named data members are declared.
   */
  lemma FieldsMatchParameters(m: MethodDef, f: Flags, k: string, ty: string)
    requires |m.returnNames| > 0
    ensures ParamField(k, ty) in PlanMessage(m, f).declared
        <==> Get(m.params, k).Some? && Get(m.params, k).value.typeName == ty
  {
    var p := PlanMessage(m, f);
    PlanAssembly(m, f);
    HeaderFieldsMatch(p.parameters != "", f.mode != Compact, m.params, p.replyName, p.replyType, k, ty);
  }

  /** Synchronousness and the build system have no say in a message class. */
  lemma PlanIgnoresCallStyle(m: MethodDef, f: Flags, s: Synchronousness, b: BuildSystem)
    requires |m.returnNames| > 0
    ensures PlanMessage(m, f.(synchronousness := s, buildSystem := b)) == PlanMessage(m, f)
  {
  }
}

=== FILE: message_runtime.dfy ===
/**
 * The state a generated message object keeps at run time, and the slots
 * and helpers that change or read it. Network transport is not modelled:
 * a reply arrives as its body text.
 */
module MessageRuntime {
  import opened QStrings
  import opened QMaps
  import opened Wsdl
  import opened Settings
  import opened Entities
  import opened ReplyExtraction
  import opened RequestPayload

  datatype Role = OutboundRole | InboundRole | StaticRole | NoRole

  datatype MessageState = MessageState(
    messageName: string,
    hostname: string,
    targetNamespace: string,
    protocol: Protocol,
    role: Role,
    params: QMap<Variant>,
    replyReceived: bool,
    reply: string)

  /**
   * The generated default constructor: names the message, points `hostname`
   * at the target namespace and assigns the protocol literal. The
   * `targetNamespace` member is never assigned and stays empty; no values
   * are bound yet. `role` and `replyReceived` are not initialised, so their
   * values are parameters.
   */
  function DefaultConstructed(m: MethodDef, f: Flags, role: Role, replyReceived: bool): (st: MessageState)
    ensures st.messageName == m.name && st.hostname == m.targetNamespace
    ensures st.targetNamespace == [] && st.params == [] && st.reply == []
    ensures st.protocol == f.protocol
  {
    ProtocolLiteralRoundTrip(f.protocol);
    var protocol := ParseProtocol(ProtocolLiteral(f.protocol)).value;
    MessageState(m.name, m.targetNamespace, [], protocol, role, [], replyReceived, [])
  }

  /**
   * The generated parameterised constructor: binds the values and assigns
   * the protocol literal, but sets neither `messageName` nor `hostname`,
   * which stay empty.
   */
  function ParamConstructed(m: MethodDef, f: Flags, values: QMap<Variant>, role: Role, replyReceived: bool): (st: MessageState)
    ensures st.params == values && st.protocol == f.protocol
    ensures st.messageName == [] && st.hostname == [] && st.targetNamespace == []
  {
    ProtocolLiteralRoundTrip(f.protocol);
    var protocol := ParseProtocol(ProtocolLiteral(f.protocol)).value;
    MessageState([], [], [], protocol, role, values, replyReceived, [])
  }

  /**
   * An object built by the parameterised constructor posts an operation
   * element with an empty name and looks for `<Result>` in the reply, so its
   * request differs from the one the default constructor's object posts
   * whenever the method has a name.
   */
  lemma ParamConstructedLosesName(m: MethodDef, f: Flags, values: QMap<Variant>, role: Role, rr: bool, body: string)
    ensures PrepareRequestData(ParamConstructed(m, f, values, role, rr)) == Payload(f.protocol, [], [])
    ensures ReplyFinished(ParamConstructed(m, f, values, role, rr), body).1 == ExtractReply([], body)
    ensures m.name != [] ==>
      PrepareRequestData(ParamConstructed(m, f, values, role, rr)) != PrepareRequestData(DefaultConstructed(m, f, role, rr))
  {
  }

  /** The generated `setProtocol`, present unless the mode is compact. */
  function SetProtocol(st: MessageState, p: Protocol): (r: MessageState)
    ensures r.protocol == p
    ensures r.(protocol := st.protocol) == st
  {
    st.(protocol := p)
  }

  /** The generated `setParams`: binds the values, nothing else. */
  function SetParams(st: MessageState, values: QMap<Variant>): (r: MessageState)
    ensures r.params == values
    ensures r.(params := st.params) == st
  {
    st.(params := values)
  }

  /** The body `sendMessage` posts. */
  function PrepareRequestData(st: MessageState): string
  {
    Payload(st.protocol, st.messageName, st.targetNamespace)
  }

  /** The bound parameter values never reach the request. */
  lemma RequestIgnoresBoundParameters(st: MessageState, values: QMap<Variant>)
    ensures PrepareRequestData(SetParams(st, values)) == PrepareRequestData(st)
  {
  }

  /**
   * The generated `replyFinished` slot: stores the extracted reply, marks
   * it received, and announces it (the second component is the value
   * `replyReady` carries). Nothing else changes.
   */
  function ReplyFinished(st: MessageState, body: string): (r: (MessageState, string))
    ensures r.0.replyReceived
    ensures r.0.reply == r.1
    ensures !Contains(r.1, LtEntity) && !Contains(r.1, GtEntity)
    ensures r.0.(replyReceived := st.replyReceived, reply := st.reply) == st
  {
    var reply := ExtractReply(st.messageName, body);
    (st.(reply := reply, replyReceived := true), reply)
  }

  /**
   * The static `sendMessage` up to its wait loop: a default-constructed
   * object, the arguments bound with `setParams` when the method has
   * parameters, and the static role.
   */
  function StaticSendStart(m: MethodDef, f: Flags, args: QMap<Variant>, role: Role, replyReceived: bool): (st: MessageState)
    ensures st.role == StaticRole
    ensures st.messageName == m.name && st.protocol == f.protocol
    ensures st.params == (if |m.params| > 0 then args else [])
  {
    var qsm := DefaultConstructed(m, f, role, replyReceived);
    var bound := if |m.params| > 0 then SetParams(qsm, args) else qsm;
    bound.(role := StaticRole)
  }

  /**
   * The static sender posts the same request as a default-constructed
   * object of its class: neither the bound arguments nor the role reach it.
   */
  lemma StaticSendRequest(m: MethodDef, f: Flags, args: QMap<Variant>, role: Role, rr: bool)
    ensures PrepareRequestData(StaticSendStart(m, f, args, role, rr)) == PrepareRequestData(DefaultConstructed(m, f, role, rr))
    ensures PrepareRequestData(StaticSendStart(m, f, args, role, rr)) == Payload(f.protocol, m.name, [])
  {
  }

  /** One turn of the static `sendMessage` wait loop. */
  datatype Poll = KeepWaiting | Return(value: string)

  function StaticSendPoll(st: MessageState): (r: Poll)
    ensures r.Return? <==> st.replyReceived
    ensures r.Return? ==> r.value == st.reply
  {
    if st.replyReceived then Return(st.reply) else KeepWaiting
  }

  /**
   * Once a reply has been handled, the static sender's next turn returns
   * exactly the reply `replyFinished` extracted and announced.
   */
  lemma StaticSendReturnsAnnouncedReply(st: MessageState, body: string)
    ensures StaticSendPoll(ReplyFinished(st, body).0) == Return(ReplyFinished(st, body).1)
    ensures StaticSendPoll(ReplyFinished(st, body).0) == Return(ExtractReply(st.messageName, body))
  {
  }

  /** A second reply overwrites the first: only the latest body matters. */
  lemma LatestReplyWins(st: MessageState, body1: string, body2: string)
    ensures ReplyFinished(ReplyFinished(st, body1).0, body2) == ReplyFinished(st, body2)
  {
  }
}

=== FILE: options.dfy ===
/** The optional value used wherever the Qt code may find nothing. */
module Options {
  datatype Option<+T> = None | Some(value: T)
}

=== FILE: qmaps.dfy ===
/**
 * QMap<QString, V>: a key-ordered association. Iterating `keys()` or the
 * entries visits them in ascending key order, whatever order they were
 * inserted in; that is why the generator lists parameters and methods
 * sorted by name.
 */
module QMaps {
  import opened Options
  import opened QStrings

  datatype Entry<V> = Entry(key: string, value: V)

  predicate Ascending<V>(es: seq<Entry<V>>)
  {
    forall i, j :: 0 <= i < j < |es| ==> Below(es[i].key, es[j].key)
  }

  /** The entries of a QMap in iteration order. */
  type QMap<V> = es: seq<Entry<V>> | Ascending(es) witness []

  function Keys<V>(m: seq<Entry<V>>): (ks: seq<string>)
    ensures |ks| == |m|
    ensures forall i :: 0 <= i < |m| ==> ks[i] == m[i].key
  {
    seq(|m|, i requires 0 <= i < |m| => m[i].key)
  }

  /** QMap::value as a lookup that may find nothing. */
  function Get<V>(m: seq<Entry<V>>, k: string): Option<V>
  {
    if |m| == 0 then None
    else if m[0].key == k then Some(m[0].value)
    else Get(m[1..], k)
  }

  lemma {:induction false} GetAt<V>(m: QMap<V>, i: nat)
    requires i < |m|
    ensures Get(m, m[i].key) == Some(m[i].value)
  {
    if i > 0 {
      BelowIrreflexive(m[0].key);
      assert m[0].key != m[i].key;
      GetAt(m[1..], i - 1);
    }
  }

  lemma {:induction false} GetNone<V>(m: seq<Entry<V>>, k: string)
    ensures Get(m, k) == None <==> k !in Keys(m)
  {
    if |m| > 0 {
      GetNone(m[1..], k);
      assert Keys(m) == [m[0].key] + Keys(m[1..]);
    }
  }

  lemma ConsKeys<V>(e: Entry<V>, m: seq<Entry<V>>)
    ensures Keys([e] + m) == [e.key] + Keys(m)
  {
  }

  lemma ConsGet<V>(e: Entry<V>, m: seq<Entry<V>>, x: string)
    ensures Get([e] + m, x) == if e.key == x then Some(e.value) else Get(m, x)
  {
    assert ([e] + m)[1..] == m;
  }

  /** Replacing the value of the first key. */
  lemma InsertAtHead<V>(m: QMap<V>, k: string, v: V)
    requires |m| > 0 && m[0].key == k
    ensures Ascending([Entry(k, v)] + m[1..])
    ensures forall x :: x in Keys([Entry(k, v)] + m[1..]) <==> x in Keys(m) || x == k
    ensures Get([Entry(k, v)] + m[1..], k) == Some(v)
    ensures forall x :: x != k ==> Get([Entry(k, v)] + m[1..], x) == Get(m, x)
  {
    assert m == [m[0]] + m[1..];
    ConsKeys(m[0], m[1..]);
    ConsKeys(Entry(k, v), m[1..]);
    forall x ensures Get([Entry(k, v)] + m[1..], x) == (if k == x then Some(v) else Get(m, x)) {
      ConsGet(Entry(k, v), m[1..], x);
      ConsGet(m[0], m[1..], x);
    }
  }

  /** A key below every key present goes in front. */
  lemma InsertInFront<V>(m: QMap<V>, k: string, v: V)
    requires |m| == 0 || Below(k, m[0].key)
    ensures Ascending([Entry(k, v)] + m)
    ensures forall x :: x in Keys([Entry(k, v)] + m) <==> x in Keys(m) || x == k
    ensures Get([Entry(k, v)] + m, k) == Some(v)
    ensures forall x :: x != k ==> Get([Entry(k, v)] + m, x) == Get(m, x)
  {
    forall j | 0 <= j < |m|
      ensures Below(k, m[j].key)
    {
      if j > 0 {
        BelowTransitive(k, m[0].key, m[j].key);
      }
    }
    ConsKeys(Entry(k, v), m);
    forall x ensures Get([Entry(k, v)] + m, x) == (if k == x then Some(v) else Get(m, x)) {
      ConsGet(Entry(k, v), m, x);
    }
  }

  /** A key above the first one goes into the tail. */
  lemma InsertBehind<V>(m: QMap<V>, k: string, v: V, rest: QMap<V>)
    requires |m| > 0 && Below(m[0].key, k)
    requires forall x :: x in Keys(rest) <==> x in Keys(m[1..]) || x == k
    requires Get(rest, k) == Some(v)
    requires forall x :: x != k ==> Get(rest, x) == Get(m[1..], x)
    ensures Ascending([m[0]] + rest)
    ensures forall x :: x in Keys([m[0]] + rest) <==> x in Keys(m) || x == k
    ensures Get([m[0]] + rest, k) == Some(v)
    ensures forall x :: x != k ==> Get([m[0]] + rest, x) == Get(m, x)
  {
    forall j | 0 <= j < |rest|
      ensures Below(m[0].key, rest[j].key)
    {
      assert rest[j].key in Keys(rest);
      var x := rest[j].key;
      if x != k {
        var i :| 0 <= i < |m[1..]| && Keys(m[1..])[i] == x;
        assert m[i + 1].key == x;
      }
    }
    assert m == [m[0]] + m[1..];
    ConsKeys(m[0], m[1..]);
    ConsKeys(m[0], rest);
    BelowIrreflexive(k);
    forall x ensures Get([m[0]] + rest, x) == (if m[0].key == x then Some(m[0].value) else Get(rest, x)) {
      ConsGet(m[0], rest, x);
    }
    forall x ensures Get(m, x) == (if m[0].key == x then Some(m[0].value) else Get(m[1..], x)) {
      ConsGet(m[0], m[1..], x);
    }
  }

  /** QMap::insert: adds the key, or replaces the value stored under it. */
  function Insert<V>(m: QMap<V>, k: string, v: V): (r: QMap<V>)
    ensures forall x :: x in Keys(r) <==> x in Keys(m) || x == k
    ensures Get(r, k) == Some(v)
    ensures forall x :: x != k ==> Get(r, x) == Get(m, x)
  {
    if |m| == 0 || Below(k, m[0].key) then
      InsertInFront(m, k, v);
      [Entry(k, v)] + m
    else if m[0].key == k then
      InsertAtHead(m, k, v);
      [Entry(k, v)] + m[1..]
    else
      BelowTotal(k, m[0].key);
      var rest := Insert(m[1..], k, v);
      InsertBehind(m, k, v, rest);
      [m[0]] + rest
  }

  /** The map obtained by inserting `decl` in declaration order. */
  function FromDeclared<V>(decl: seq<Entry<V>>): (r: QMap<V>)
    ensures forall x :: x in Keys(r) <==> x in Keys(decl)
  {
    if |decl| == 0 then []
    else
      var last := decl[|decl| - 1];
      var init := FromDeclared(decl[..|decl| - 1]);
      assert Keys(decl) == Keys(decl[..|decl| - 1]) + [last.key];
      Insert(init, last.key, last.value)
  }

  predicate DistinctKeys<V>(decl: seq<Entry<V>>)
  {
    forall i, j :: 0 <= i < j < |decl| ==> decl[i].key != decl[j].key
  }

  /** With distinct names, the map holds exactly the declared entries. */
  lemma {:induction false} GetFromDeclared<V>(decl: seq<Entry<V>>, k: string, v: V)
    requires DistinctKeys(decl)
    ensures Get(FromDeclared(decl), k) == Some(v) <==> Entry(k, v) in decl
  {
    if |decl| > 0 {
      var init := decl[..|decl| - 1];
      var last := decl[|decl| - 1];
      GetFromDeclared(init, k, v);
      assert decl == init + [last];
      if k != last.key {
        assert Entry(k, v) in decl <==> Entry(k, v) in init;
      } else {
        assert forall i :: 0 <= i < |init| ==> init[i].key != k by {
          forall i | 0 <= i < |init|
            ensures init[i].key != k
          {
            assert init[i] == decl[i];
          }
        }
      }
    }
  }

  lemma TailLacksHead<V>(m: QMap<V>)
    requires |m| > 0
    ensures m[0].key !in Keys(m[1..])
  {
    BelowIrreflexive(m[0].key);
    forall i | 0 <= i < |m| - 1
      ensures Keys(m[1..])[i] != m[0].key
    {
      assert Below(m[0].key, m[i + 1].key);
    }
  }

  lemma HeadFirst<V>(m: QMap<V>, k: string)
    requires k in Keys(m)
    ensures |m| > 0 && (k == m[0].key || Below(m[0].key, k))
  {
    var i :| 0 <= i < |m| && Keys(m)[i] == k;
  }

  /** Two QMaps that agree on every lookup are the same sequence of entries. */
  lemma {:induction false} Extensionality<V>(a: QMap<V>, b: QMap<V>)
    requires forall k :: Get(a, k) == Get(b, k)
    ensures a == b
  {
    if |a| > 0 {
      GetAt(a, 0);
      GetNone(b, a[0].key);
      HeadFirst(b, a[0].key);
    }
    if |b| > 0 {
      GetAt(b, 0);
      GetNone(a, b[0].key);
      HeadFirst(a, b[0].key);
    }
    if |a| > 0 {
      var ka, kb := a[0].key, b[0].key;
      assert !(Below(ka, kb) && Below(kb, ka)) by {
        if Below(ka, kb) {
          BelowAsymmetric(ka, kb);
        }
      }
      assert ka == kb;
      assert a[0] == b[0];
      TailLacksHead(a);
      TailLacksHead(b);
      forall k
        ensures Get(a[1..], k) == Get(b[1..], k)
      {
        if k == ka {
          GetNone(a[1..], k);
          GetNone(b[1..], k);
        } else {
          assert Get(a, k) == Get(a[1..], k) && Get(b, k) == Get(b[1..], k);
        }
      }
      Extensionality(a[1..], b[1..]);
    }
  }

  /**
   * The order in which distinct names are declared does not matter: any two
   * declarations of the same entries build the same map.
   */
  lemma DeclarationOrderIrrelevant<V>(d1: seq<Entry<V>>, d2: seq<Entry<V>>)
    requires DistinctKeys(d1) && DistinctKeys(d2)
    requires forall e :: e in d1 <==> e in d2
    ensures FromDeclared(d1) == FromDeclared(d2)
  {
    forall k
      ensures Get(FromDeclared(d1), k) == Get(FromDeclared(d2), k)
    {
      var g1, g2 := Get(FromDeclared(d1), k), Get(FromDeclared(d2), k);
      if g1.Some? {
        GetFromDeclared(d1, k, g1.value);
        GetFromDeclared(d2, k, g1.value);
      } else if g2.Some? {
        GetFromDeclared(d1, k, g2.value);
        GetFromDeclared(d2, k, g2.value);
      }
    }
    Extensionality(FromDeclared(d1), FromDeclared(d2));
  }
}

=== FILE: qstrings.dfy ===
/**
 * The few QString operations the generator and the generated code rely on,
 * with Qt 4's behaviour: ordering, searching, slicing, chopping, replacing.
 * Characters stand for Unicode scalar values.
 */
module QStrings {

  /** QString's `operator<`: lexicographic comparison, a proper prefix first. */
  predicate Below(a: string, b: string)
  {
    if |a| == 0 then |b| > 0
    else |b| > 0 && (if a[0] == b[0] then Below(a[1..], b[1..]) else a[0] < b[0])
  }

  lemma {:induction false} BelowIrreflexive(a: string)
    ensures !Below(a, a)
  {
    if |a| > 0 {
      BelowIrreflexive(a[1..]);
    }
  }

  lemma {:induction false} BelowTransitive(a: string, b: string, c: string)
    requires Below(a, b) && Below(b, c)
    ensures Below(a, c)
  {
    if |a| > 0 && a[0] == b[0] && b[0] == c[0] {
      BelowTransitive(a[1..], b[1..], c[1..]);
    }
  }

  lemma {:induction false} BelowTotal(a: string, b: string)
    requires a != b
    ensures Below(a, b) || Below(b, a)
  {
    if |a| > 0 && |b| > 0 && a[0] == b[0] {
      assert a == [a[0]] + a[1..] && b == [b[0]] + b[1..];
      BelowTotal(a[1..], b[1..]);
    }
  }

  lemma BelowAsymmetric(a: string, b: string)
    requires Below(a, b)
    ensures !Below(b, a)
  {
    if Below(b, a) {
      BelowTransitive(a, b, a);
      BelowIrreflexive(a);
    }
  }

  /** `pat` occurs in `s` starting at index `i`. */
  predicate OccursAt(s: string, pat: string, i: int)
  {
    0 <= i && i + |pat| <= |s| && s[i..i + |pat|] == pat
  }

  lemma AppendAssociative<T>(a: seq<T>, b: seq<T>, c: seq<T>)
    ensures a + (b + c) == (a + b) + c
  {
  }

  /** `pat` occurs somewhere in `s`. */
  predicate Contains(s: string, pat: string)
  {
    pat <= s || (|s| > 0 && Contains(s[1..], pat))
  }

  /**
   * QString::indexOf(pat, from) for a non-negative `from`: the first index at
   * or after `from` where `pat` occurs, or -1 when there is none.
   */
  function IndexOf(s: string, pat: string, from: nat): (r: int)
    ensures r == -1 || (from <= r && OccursAt(s, pat, r))
    ensures r == -1 <==> forall i :: from <= i ==> !OccursAt(s, pat, i)
    ensures forall i :: from <= i < r ==> !OccursAt(s, pat, i)
    decreases |s| - from
  {
    if from + |pat| > |s| then -1
    else if s[from..from + |pat|] == pat then from
    else IndexOf(s, pat, from + 1)
  }

  /**
   * QString::mid(position, n) for a non-negative `position`: empty past the
   * end, otherwise up to `n` characters, or the whole rest when `n` is
   * negative or reaches past the end.
   */
  function Mid(s: string, position: nat, n: int): (r: string)
    ensures position > |s| ==> r == []
    ensures position <= |s| && 0 <= n <= |s| - position ==> r == s[position..position + n]
    ensures position <= |s| && (n < 0 || n > |s| - position) ==> r == s[position..]
  {
    if position > |s| then []
    else
      var n1 := if n < 0 then |s| - position else n;
      var n2 := if n1 + position > |s| then |s| - position else n1;
      s[position..position + n2]
  }

  /** QString::chop(n): drops the last `n` characters, all of them when `n` is too large. */
  function Chop(s: string, n: nat): (r: string)
    ensures n <= |s| ==> r + s[|s| - n..] == s
    ensures n >= |s| ==> r == []
  {
    if n >= |s| then [] else s[..|s| - n]
  }

  /** Reference definition of joining strings with a separator. */
  function Join(sep: string, xs: seq<string>): string
  {
    if |xs| == 0 then []
    else if |xs| == 1 then xs[0]
    else Join(sep, xs[..|xs| - 1]) + sep + xs[|xs| - 1]
  }

  lemma {:induction false} JoinEmpty(sep: string, xs: seq<string>)
    requires forall i :: 0 <= i < |xs| ==> xs[i] != []
    ensures Join(sep, xs) == [] <==> |xs| == 0
  {
    if |xs| >= 2 {
      assert xs[|xs| - 1] != [];
    } else if |xs| == 1 {
      assert xs[0] != [];
    }
  }

  lemma {:induction false} ContainsSuffix(s: string, k: nat, pat: string)
    requires k <= |s| && Contains(s[k..], pat)
    ensures Contains(s, pat)
  {
    if k > 0 {
      assert s[1..][k - 1..] == s[k..];
      ContainsSuffix(s[1..], k - 1, pat);
    }
  }

  lemma {:induction false} ContainsPrefix(s: string, k: nat, pat: string)
    requires k <= |s| && Contains(s[..k], pat)
    ensures Contains(s, pat)
  {
    if pat <= s[..k] {
      assert pat <= s;
    } else {
      assert s[..k][1..] == s[1..][..k - 1];
      ContainsPrefix(s[1..], k - 1, pat);
    }
  }

  /** With no occurrence at any index, `Contains` does not hold. */
  lemma {:induction false} NoOccurrenceNoContains(s: string, pat: string)
    requires forall p :: 0 <= p ==> !OccursAt(s, pat, p)
    ensures !Contains(s, pat)
  {
    assert !OccursAt(s, pat, 0);
    if |s| > 0 {
      forall p | 0 <= p
        ensures !OccursAt(s[1..], pat, p)
      {
        if p + |pat| <= |s| - 1 {
          assert s[1..][p..p + |pat|] == s[p + 1..p + 1 + |pat|];
          assert !OccursAt(s, pat, p + 1);
        }
      }
      NoOccurrenceNoContains(s[1..], pat);
    }
  }

  lemma SliceOfSlice<T>(s: seq<T>, lo: nat, hi: nat, a: nat, b: nat)
    requires lo <= hi <= |s| && a <= b <= hi - lo
    ensures s[lo..hi][a..b] == s[lo + a..lo + b]
  {
    assert |s[lo..hi][a..b]| == |s[lo + a..lo + b]|;
    forall k | 0 <= k < b - a
      ensures s[lo..hi][a..b][k] == s[lo + a..lo + b][k]
    {
      assert s[lo..hi][a..b][k] == s[lo..hi][a + k] == s[lo + a + k];
    }
  }

  /** An occurrence in a slice is one in the whole string, shifted by the slice's start. */
  lemma SliceOccursAt(s: string, pat: string, lo: nat, hi: nat, p: nat)
    requires lo <= hi <= |s| && p + |pat| <= hi - lo
    ensures OccursAt(s[lo..hi], pat, p) <==> OccursAt(s, pat, lo + p)
  {
    SliceOfSlice(s, lo, hi, p, p + |pat|);
  }

  /** A stretch where no occurrence starts holds none in full. */
  lemma SliceLacks(s: string, pat: string, lo: nat, hi: nat)
    requires lo <= hi <= |s| && |pat| > 0
    requires forall k :: lo <= k < hi ==> !OccursAt(s, pat, k)
    ensures !Contains(s[lo..hi], pat)
  {
    var t := s[lo..hi];
    forall p | 0 <= p
      ensures !OccursAt(t, pat, p)
    {
      if p + |pat| <= |t| {
        SliceOccursAt(s, pat, lo, hi, p);
      }
    }
    NoOccurrenceNoContains(t, pat);
  }

  /** An occurrence inside a slice is an occurrence in the whole string. */
  lemma ContainsSlice(s: string, lo: nat, hi: nat, pat: string)
    requires lo <= hi <= |s| && Contains(s[lo..hi], pat)
    ensures Contains(s, pat)
  {
    assert s[lo..hi] == s[lo..][..hi - lo];
    ContainsPrefix(s[lo..], hi - lo, pat);
    ContainsSuffix(s, lo, pat);
  }

  /** A piece cut with Mid holds nothing its source does not. */
  lemma MidKeepsAbsence(s: string, position: nat, n: int, pat: string)
    ensures !Contains(s, pat) ==> !Contains(Mid(s, position, n), pat)
  {
    if position <= |s| && Contains(Mid(s, position, n), pat) {
      if 0 <= n <= |s| - position {
        ContainsSlice(s, position, position + n, pat);
      } else {
        ContainsSlice(s, position, |s|, pat);
      }
    }
  }
}

=== FILE: reply_extraction.dfy ===
/**
 * The `replyFinished` slot of every generated message class: how the reply
 * text is cut out of the response body. As generated, the whole body is
 * unescaped first and only then searched for `<NameResult>` and
 * `</NameResult>`.
 */
module ReplyExtraction {
  import opened QStrings
  import opened Entities

  function OpenTag(messageName: string): string
  {
    "<" + messageName + "Result>"
  }

  function CloseTag(messageName: string): string
  {
    "</" + messageName + "Result>"
  }

  /**
   * `replyBeginIndex` after `replyBeginIndex += tempBegin.length()`: the end
   * of the first opening tag, or `len(tag) - 1` when there is none. Either
   * way it is at least `len(tag) - 1`, so the generated `== -1` test never
   * fires.
   */
  function BeginIndex(text: string, messageName: string): (b: nat)
    ensures b >= |OpenTag(messageName)| - 1
    ensures (forall i :: !OccursAt(text, OpenTag(messageName), i)) ==> b == |OpenTag(messageName)| - 1
    ensures forall i :: OccursAt(text, OpenTag(messageName), i) && (forall k :: 0 <= k < i ==> !OccursAt(text, OpenTag(messageName), k))
              ==> b == i + |OpenTag(messageName)|
  {
    var open := OpenTag(messageName);
    IndexOf(text, open, 0) + |open|
  }

  /** `replyFinishIndex`: the first closing tag at or after `begin`, or the end of the text. */
  function FinishIndex(text: string, messageName: string, begin: nat): (e: nat)
    ensures e <= |text|
    ensures (forall j :: begin <= j ==> !OccursAt(text, CloseTag(messageName), j)) ==> e == |text|
    ensures forall j :: begin <= j && OccursAt(text, CloseTag(messageName), j) && (forall k :: begin <= k < j ==> !OccursAt(text, CloseTag(messageName), k))
              ==> e == j
  {
    var found := IndexOf(text, CloseTag(messageName), begin);
    if found == -1 then |text| else found
  }

  /** The reply the generated `replyFinished` stores and announces for a response `body`. */
  function ExtractReply(messageName: string, body: string): (r: string)
    ensures !Contains(r, LtEntity) && !Contains(r, GtEntity)
  {
    var text := Unescape(body);
    var begin := BeginIndex(text, messageName);
    var finish := FinishIndex(text, messageName, begin);
    MidKeepsAbsence(text, begin, finish - begin, LtEntity);
    MidKeepsAbsence(text, begin, finish - begin, GtEntity);
    Mid(text, begin, finish - begin)
  }

  /** Both markers present: the cut runs from the end of the first opening tag to the closing tag. */
  lemma CutBetweenMarkers(messageName: string, body: string, i: nat, j: nat)
    requires OccursAt(Unescape(body), OpenTag(messageName), i)
    requires forall k :: 0 <= k < i ==> !OccursAt(Unescape(body), OpenTag(messageName), k)
    requires i + |OpenTag(messageName)| <= j && OccursAt(Unescape(body), CloseTag(messageName), j)
    requires forall k :: i + |OpenTag(messageName)| <= k < j ==> !OccursAt(Unescape(body), CloseTag(messageName), k)
    ensures ExtractReply(messageName, body) == Unescape(body)[i + |OpenTag(messageName)|..j]
  {
  }

  /**
   * Both markers present: the reply is exactly the text between the first
   * opening tag and the first closing tag at or after its end, and holds no
   * closing tag itself.
   */
  lemma ExtractBetweenMarkers(messageName: string, body: string, i: nat, j: nat)
    requires OccursAt(Unescape(body), OpenTag(messageName), i)
    requires forall k :: 0 <= k < i ==> !OccursAt(Unescape(body), OpenTag(messageName), k)
    requires i + |OpenTag(messageName)| <= j && OccursAt(Unescape(body), CloseTag(messageName), j)
    requires forall k :: i + |OpenTag(messageName)| <= k < j ==> !OccursAt(Unescape(body), CloseTag(messageName), k)
    ensures ExtractReply(messageName, body) == Unescape(body)[i + |OpenTag(messageName)|..j]
    ensures !Contains(ExtractReply(messageName, body), CloseTag(messageName))
  {
    var t, b := Unescape(body), i + |OpenTag(messageName)|;
    CutBetweenMarkers(messageName, body, i, j);
    SliceLacks(t, CloseTag(messageName), b, j);
    assert ExtractReply(messageName, body) == t[b..j];
  }

  /** Opening marker present, no closing marker after it: the reply runs to the end of the text. */
  lemma ExtractToEnd(messageName: string, body: string, i: nat)
    requires OccursAt(Unescape(body), OpenTag(messageName), i)
    requires forall k :: 0 <= k < i ==> !OccursAt(Unescape(body), OpenTag(messageName), k)
    requires forall k :: i + |OpenTag(messageName)| <= k ==> !OccursAt(Unescape(body), CloseTag(messageName), k)
    ensures ExtractReply(messageName, body) == Unescape(body)[i + |OpenTag(messageName)|..]
  {
  }

  /**
   * No opening marker: the reply is not empty but is cut from offset
   * `len(<NameResult>) - 1`, up to the first closing marker from there or
   * the end of the text.
   */
  lemma ExtractWithoutOpenTag(messageName: string, body: string)
    requires forall k :: !OccursAt(Unescape(body), OpenTag(messageName), k)
    ensures var text := Unescape(body);
            var b := |OpenTag(messageName)| - 1;
            var e := FinishIndex(text, messageName, b);
            ExtractReply(messageName, body) == if b <= |text| then text[b..e] else []
  {
  }

  /** A text without the first character of a pattern holds no occurrence of it. */
  lemma NoLeadNoOccurrence(text: string, pat: string)
    requires |pat| > 0 && pat[0] !in text
    ensures forall k :: !OccursAt(text, pat, k)
  {
    forall k
      ensures !OccursAt(text, pat, k)
    {
      if 0 <= k && k + |pat| <= |text| {
        assert text[k..k + |pat|][0] == text[k];
      }
    }
  }

  /**
   * A body with neither `&` nor `<` holds no marker at all, yet its reply is
   * everything from offset `len(<NameResult>) - 1` on, not the empty text.
   */
  lemma ReplyOfUnmarkedBody(messageName: string, body: string)
    requires '&' !in body && '<' !in body
    ensures |OpenTag(messageName)| - 1 <= |body| ==>
              ExtractReply(messageName, body) == body[|OpenTag(messageName)| - 1..]
    ensures |OpenTag(messageName)| - 1 > |body| ==> ExtractReply(messageName, body) == []
  {
    NoLeadNoOccurrence(body, OpenTag(messageName));
    NoLeadNoOccurrence(body, CloseTag(messageName));
    ExtractWithoutOpenTag(messageName, body);
  }

  /** For instance, a 16-character body without markers yields its last five characters. */
  lemma MissingOpenTagExample()
    ensures ExtractReply("getX", "abcdefghijklmnop") == "lmnop"
  {
    ReplyOfUnmarkedBody("getX", "abcdefghijklmnop");
  }

  /**
   * A value wrapped in the markers, after a prefix that cannot hold an
   * opening tag, is returned exactly, whatever follows.
   */
  lemma WrappedValue(messageName: string, pre: string, v: string, post: string)
    requires '<' !in pre && '<' !in v
    ensures var text := pre + OpenTag(messageName) + v + CloseTag(messageName) + post;
            '&' !in text ==> ExtractReply(messageName, text) == v
  {
    var open, close := OpenTag(messageName), CloseTag(messageName);
    var text := pre + open + v + close + post;
    if '&' !in text {
      var i, j := |pre|, |pre| + |open| + |v|;
      Layout(pre, open, v, close, post);
      NoLeadInRange(text, open, 0, i);
      NoLeadInRange(text, close, i + |open|, j);
      ExtractBetweenMarkers(messageName, text, i, j);
    }
  }

  /** Where each piece of `pre + open + v + close + post` sits. */
  lemma Layout(pre: string, open: string, v: string, close: string, post: string)
    ensures var text := pre + open + v + close + post;
            var i, j := |pre|, |pre| + |open| + |v|;
            && text[i..i + |open|] == open
            && text[j..j + |close|] == close
            && text[i + |open|..j] == v
            && (forall k :: 0 <= k < i ==> text[k] == pre[k])
            && (forall k :: i + |open| <= k < j ==> text[k] == v[k - i - |open|])
  {
    var a := pre + open;
    var b := a + v;
    var c := b + close;
    var text := c + post;
    assert text[..|c|] == c && c[..|b|] == b && b[..|a|] == a;
  }

  /** No occurrence can start where the text lacks the pattern's first character. */
  lemma NoLeadInRange(text: string, pat: string, lo: nat, hi: nat)
    requires |pat| > 0 && hi <= |text|
    requires forall k :: lo <= k < hi ==> text[k] != pat[0]
    ensures forall k :: lo <= k < hi ==> !OccursAt(text, pat, k)
  {
    forall k | lo <= k < hi
      ensures !OccursAt(text, pat, k)
    {
      if k + |pat| <= |text| {
        assert text[k..k + |pat|][0] == text[k];
      }
    }
  }

  /**
   * Markers written as entities are found as well, because the whole body
   * is unescaped before the search.
   */
  lemma EscapedWrappedValue(messageName: string, pre: string, v: string, post: string)
    requires '<' !in pre && '<' !in v
    ensures var text := pre + OpenTag(messageName) + v + CloseTag(messageName) + post;
            '&' !in text ==> ExtractReply(messageName, Escape(text)) == v
  {
    var text := pre + OpenTag(messageName) + v + CloseTag(messageName) + post;
    if '&' !in text {
      UnescapeInvertsEscape(text);
      WrappedValue(messageName, pre, v, post);
    }
  }
}

=== FILE: request_payload.dfy ===
/**
 * The `prepareRequestData` helper of every generated message class: the
 * request body posted to the service. Under SOAP 1.2 it is wrapped in the
 * envelope of section 5.1 of SOAP 1.2 Part 1.
 */
module RequestPayload {
  import opened QMaps
  import opened Wsdl
  import opened Settings

  /** The envelope namespace of SOAP 1.2. */
  const Soap12Namespace: string := "http://www.w3.org/2003/05/soap-envelope"

  const XmlDeclaration: string := "<?xml version=\"1.0\" encoding=\"utf-8\"?>"

  /** The header up to the value of the `soap12` namespace attribute. */
  const EnvelopeLead: string :=
    XmlDeclaration + " \r\n <soap12:Envelope xmlns:xsi=\"http://www.w3.org/2001/XMLSchema-instance\" xmlns:xsd=\"http://www.w3.org/2001/XMLSchema\" xmlns:soap12=\""

  const EnvelopeHeader: string := EnvelopeLead + Soap12Namespace + "\"> \r\n <soap12:Body> \r\n"

  const EnvelopeFooter: string := "</soap12:Body> \r\n</soap12:Envelope>"

  /**
   * What follows the element name in the generated opening tag. The
   * generated statement writes adjacent string literals, which the C++
   * compiler joins, so the namespace variable's name appears as plain text
   * and its value never does.
   */
  const NamespaceText: string := " xmlns= + targetNamespace + > \r\n"

  function OpenElement(messageName: string): string
  {
    "\t<" + messageName + NamespaceText
  }

  function CloseElement(messageName: string): string
  {
    "\t</" + messageName + "> \r\n"
  }

  /** One child element per map entry, `<key>value</key>`, in key order. */
  function ParamElements(ps: seq<Entry<Variant>>): string
  {
    if |ps| == 0 then []
    else "\t\t<" + ps[0].key + ">" + ps[0].value.text + "</" + ps[0].key + "> \r\n" + ParamElements(ps[1..])
  }

  /**
   * The request body: envelope header, operation element, envelope footer.
   * The child elements come from a freshly declared, empty local map, so
   * there are none; the namespace and the bound parameters play no part.
   */
  function Payload(protocol: Protocol, messageName: string, targetNamespace: string): (r: string)
    ensures protocol == Soap12 ==>
              r == EnvelopeHeader + OpenElement(messageName) + CloseElement(messageName) + EnvelopeFooter
    ensures protocol != Soap12 ==> r == OpenElement(messageName) + CloseElement(messageName)
  {
    var header := if protocol == Soap12 then EnvelopeHeader else [];
    var footer := if protocol == Soap12 then EnvelopeFooter else [];
    var parameters: QMap<Variant> := [];
    var body := OpenElement(messageName) + ParamElements(parameters) + CloseElement(messageName);
    header + body + footer
  }

  /** The namespace never reaches the request. */
  lemma PayloadIgnoresNamespace(protocol: Protocol, messageName: string, ns1: string, ns2: string)
    ensures Payload(protocol, messageName, ns1) == Payload(protocol, messageName, ns2)
  {
  }

  /** A text that frames a name twice determines the name. */
  lemma FramedNameInjective(h: string, a: string, b: string, c: string, f: string, n1: string, n2: string)
    requires h + (a + n1 + b) + (c + n1 + f) == h + (a + n2 + b) + (c + n2 + f)
    ensures n1 == n2
  {
    var x := h + (a + n1 + b) + (c + n1 + f);
    var y := h + (a + n2 + b) + (c + n2 + f);
    assert |n1| == |n2|;
    assert x[|h| + |a|..|h| + |a| + |n1|] == n1;
    assert y[|h| + |a|..|h| + |a| + |n2|] == n2;
  }

  /** The request names its operation: different operations never send the same request. */
  lemma PayloadNamesOperation(protocol: Protocol, n1: string, n2: string, ns: string)
    requires Payload(protocol, n1, ns) == Payload(protocol, n2, ns)
    ensures n1 == n2
  {
    var h := if protocol == Soap12 then EnvelopeHeader else [];
    var f := if protocol == Soap12 then EnvelopeFooter else [];
    assert Payload(protocol, n1, ns) == h + ("\t<" + n1 + NamespaceText) + ("\t</" + n1 + ("> \r\n" + f));
    assert Payload(protocol, n2, ns) == h + ("\t<" + n2 + NamespaceText) + ("\t</" + n2 + ("> \r\n" + f));
    FramedNameInjective(h, "\t<", NamespaceText, "\t</", "> \r\n" + f, n1, n2);
  }
}

=== FILE: service_planner.dfy ===
/**
 * Which members the generated web-service facade class gets. The facade
 * wraps every message class: one `<op>Send` member per method, and, for
 * asynchronous use outside compact mode, a reply getter, a reply slot, a
 * result field and an owned message instance per method.
 */
module ServicePlanner {
  import opened Options
  import opened QStrings
  import opened QMaps
  import opened Wsdl
  import opened Settings
  import opened Signatures
  import MessagePlanner

  datatype FacadeMember =
    | FacadeCtor | FacadeDtor | GetMethodNames
    | Send(op: string, returnType: string, parameters: string)
    | GetHostUrl | GetHost | IsErrorState | Init
    | ReplyGetter(op: string, typeName: string)   // <op>ReplyRead()
    | ReplySlot(op: string)                       // <op>Reply(QString result)
    | ResultField(op: string, typeName: string)   // <op>Result
    | OwnedInstance(op: string)                   // the message object the facade owns

  /** The per-method member families. */
  datatype Kind = SendKind | GetterKind | SlotKind | ResultKind | InstanceKind

  /** What an `<op>Send` body does. */
  datatype Call =
    | BlockingCall(messageClass: string, arguments: string)  // return <class>::sendMessage(this, args)
    | ForwardCall(instance: string, arguments: string)       // <instance>.sendMessage(args)

  /** A `connect` of an owned instance's replyReady signal; no slot name in compact mode. */
  datatype Connection = Connection(op: string, slot: Option<string>)

  datatype ServicePlan = ServicePlan(
    className: string,
    declared: seq<FacadeMember>,   // the header, in emission order
    defined: seq<FacadeMember>,    // the source, in emission order
    calls: seq<Call>,              // the body of each <op>Send, in key order
    connections: seq<Connection>,  // what the constructor wires up, in key order
    methodNames: seq<string>)      // what getMethodNames() returns

  predicate IsKind(t: FacadeMember, k: Kind)
  {
    match k
    case SendKind => t.Send?
    case GetterKind => t.ReplyGetter?
    case SlotKind => t.ReplySlot?
    case ResultKind => t.ResultField?
    case InstanceKind => t.OwnedInstance?
  }

  /** The operations named by the members of one family, in order. */
  function OpsOf(ts: seq<FacadeMember>, k: Kind): seq<string>
  {
    if |ts| == 0 then []
    else (if IsKind(ts[0], k) then [ts[0].op] else []) + OpsOf(ts[1..], k)
  }

  lemma {:induction false} OpsOfAppend(a: seq<FacadeMember>, b: seq<FacadeMember>, k: Kind)
    ensures OpsOf(a + b, k) == OpsOf(a, k) + OpsOf(b, k)
  {
    if |a| == 0 {
      assert a + b == b;
    } else {
      assert (a + b)[0] == a[0];
      assert (a + b)[1..] == a[1..] + b;
      OpsOfAppend(a[1..], b, k);
    }
  }

  /** Members that belong to no per-method family. */
  predicate Fixed(t: FacadeMember)
  {
    t in {FacadeCtor, FacadeDtor, GetMethodNames, GetHostUrl, GetHost, IsErrorState, Init}
  }

  lemma {:induction false} OpsOfFixed(ts: seq<FacadeMember>, k: Kind)
    requires forall i :: 0 <= i < |ts| ==> Fixed(ts[i])
    ensures OpsOf(ts, k) == []
  {
    if |ts| > 0 {
      OpsOfFixed(ts[1..], k);
    }
  }

  const SyncReturnType: string := "QString"
  const AsyncReturnType: string := "void"

  /** The member of family `k` generated for one method. */
  function Member(e: Entry<MethodDef>, k: Kind, returnType: string): (t: FacadeMember)
    ensures IsKind(t, k) && t.op == e.key
  {
    match k
    case SendKind => Send(e.key, returnType, ParamList(e.value.params))
    case GetterKind => ReplyGetter(e.key, ReplyType(e.value.results))
    case SlotKind => ReplySlot(e.key)
    case ResultKind => ResultField(e.key, ReplyType(e.value.results))
    case InstanceKind => OwnedInstance(e.key)
  }

  /** One member of family `k` per method, in key order. */
  function Each(ms: seq<Entry<MethodDef>>, k: Kind, returnType: string): (r: seq<FacadeMember>)
    ensures |r| == |ms|
  {
    seq(|ms|, i requires 0 <= i < |ms| => Member(ms[i], k, returnType))
  }

  lemma {:induction false} OpsOfEach(ms: seq<Entry<MethodDef>>, k: Kind, returnType: string, k2: Kind)
    ensures OpsOf(Each(ms, k, returnType), k2) == if k == k2 then Keys(ms) else []
  {
    if |ms| > 0 {
      var r := Each(ms, k, returnType);
      assert r[1..] == Each(ms[1..], k, returnType);
      assert Keys(ms) == [ms[0].key] + Keys(ms[1..]);
      assert IsKind(r[0], k2) <==> k == k2 by {
        assert IsKind(r[0], k);
      }
      OpsOfEach(ms[1..], k, returnType, k2);
    }
  }

  /** Two families emitted back to back, or nothing when the condition fails. */
  function Pair(ms: seq<Entry<MethodDef>>, c: bool, k1: Kind, k2: Kind): seq<FacadeMember>
  {
    if c then Each(ms, k1, AsyncReturnType) + Each(ms, k2, AsyncReturnType) else []
  }

  lemma OpsOfPair(ms: seq<Entry<MethodDef>>, c: bool, k1: Kind, k2: Kind, k: Kind)
    requires k1 != k2
    ensures OpsOf(Pair(ms, c, k1, k2), k) == if c && (k == k1 || k == k2) then Keys(ms) else []
  {
    if c {
      OpsOfAppend(Each(ms, k1, AsyncReturnType), Each(ms, k2, AsyncReturnType), k);
      OpsOfEach(ms, k1, AsyncReturnType, k);
      OpsOfEach(ms, k2, AsyncReturnType, k);
    }
  }

  /** The facade class name: the requested base class name, else the service name. */
  function ClassName(baseClassName: string, serviceName: string): (r: string)
    ensures baseClassName != [] ==> r == baseClassName
    ensures baseClassName == [] ==> r == serviceName
  {
    if baseClassName != "" then baseClassName else serviceName
  }

  function CallFor(e: Entry<MethodDef>, s: Synchronousness): Call
  {
    if s == Synchronous then BlockingCall(e.value.name, ArgList(e.value.params))
    else ForwardCall(e.key, ArgList(e.value.params))
  }

  function ConnectionFor(e: Entry<MethodDef>, m: Mode): Connection
  {
    Connection(e.key, if m == Compact then None else Some(e.key + "Reply"))
  }

  /** Reply getters, slots, result fields and instances exist only for asynchronous, non-compact use. */
  predicate Exposed(f: Flags)
  {
    f.synchronousness == Asynchronous && f.mode != Compact
  }

  /** The header: fixed members, sends, accessors, reply plumbing, init, then the per-method result fields and instances. */
  function FacadeHeader(methods: QMap<MethodDef>, returnType: string, exposed: bool): seq<FacadeMember>
  {
    [FacadeCtor, FacadeDtor, GetMethodNames] + Each(methods, SendKind, returnType) + [GetHostUrl, GetHost, IsErrorState]
      + Pair(methods, exposed, GetterKind, SlotKind) + [Init]
      + Pair(methods, exposed, ResultKind, InstanceKind)
  }

  /** The source: the same callable members, reply plumbing right after the sends. */
  function FacadeSource(methods: QMap<MethodDef>, returnType: string, exposed: bool): seq<FacadeMember>
  {
    [FacadeCtor, FacadeDtor, GetMethodNames] + Each(methods, SendKind, returnType)
      + Pair(methods, exposed, GetterKind, SlotKind) + [GetHostUrl, GetHost, IsErrorState, Init]
  }

  function PlanService(methods: QMap<MethodDef>, f: Flags, baseClassName: string, serviceName: string): (p: ServicePlan)
    ensures baseClassName != [] ==> p.className == baseClassName
    ensures baseClassName == [] ==> p.className == serviceName
    ensures |p.calls| == |methods| && |p.methodNames| == |methods|
    ensures forall i :: 0 <= i < |methods| ==>
      (p.calls[i].BlockingCall? <==> f.synchronousness == Synchronous) &&
      p.calls[i].arguments == Join(", ", Keys(methods[i].value.params)) &&
      p.methodNames[i] == methods[i].value.name
    ensures forall i :: 0 <= i < |methods| && p.calls[i].BlockingCall? ==>
      p.calls[i].messageClass == methods[i].value.name
    ensures forall i :: 0 <= i < |methods| && p.calls[i].ForwardCall? ==>
      p.calls[i].instance == methods[i].key
    ensures f.synchronousness == Synchronous ==> p.connections == []
    ensures f.synchronousness == Asynchronous ==> |p.connections| == |methods|
    ensures forall i :: 0 <= i < |p.connections| ==>
      i < |methods| && p.connections[i].op == methods[i].key &&
      (p.connections[i].slot.Some? <==> f.mode != Compact) &&
      (p.connections[i].slot.Some? ==> p.connections[i].slot.value == methods[i].key + "Reply")
  {
    var sync := f.synchronousness == Synchronous;
    var returnType := if sync then SyncReturnType else AsyncReturnType;
    var exposed := Exposed(f);
    ServicePlan(
      ClassName(baseClassName, serviceName),
      FacadeHeader(methods, returnType, exposed),
      FacadeSource(methods, returnType, exposed),
      seq(|methods|, i requires 0 <= i < |methods| => CallFor(methods[i], f.synchronousness)),
      if sync then [] else seq(|methods|, i requires 0 <= i < |methods| => ConnectionFor(methods[i], f.mode)),
      seq(|methods|, i requires 0 <= i < |methods| => methods[i].value.name))
  }

  /** The families in header order: sends, then reply plumbing, then fields and instances. */
  lemma {:induction false} HeaderFamilies(head: seq<FacadeMember>, sends: seq<FacadeMember>, mid: seq<FacadeMember>,
                                         replies: seq<FacadeMember>, fields: seq<FacadeMember>, k: Kind)
    requires forall i :: 0 <= i < |head| ==> Fixed(head[i])
    requires forall i :: 0 <= i < |mid| ==> Fixed(mid[i])
    ensures OpsOf(head + sends + mid + replies + [Init] + fields, k)
         == OpsOf(sends, k) + OpsOf(replies, k) + OpsOf(fields, k)
  {
    assert OpsOf(head + sends + mid, k) == OpsOf(sends, k) by {
      OpsOfFixed(head, k);
      OpsOfFixed(mid, k);
      OpsOfAppend(head + sends, mid, k);
      OpsOfAppend(head, sends, k);
    }
    assert OpsOf(head + sends + mid + replies + [Init], k) == OpsOf(sends, k) + OpsOf(replies, k) by {
      OpsOfFixed([Init], k);
      OpsOfAppend(head + sends + mid + replies, [Init], k);
      OpsOfAppend(head + sends + mid, replies, k);
    }
    OpsOfAppend(head + sends + mid + replies + [Init], fields, k);
  }

  lemma {:induction false} SourceFamilies(head: seq<FacadeMember>, sends: seq<FacadeMember>,
                                         replies: seq<FacadeMember>, tail: seq<FacadeMember>, k: Kind)
    requires forall i :: 0 <= i < |head| ==> Fixed(head[i])
    requires forall i :: 0 <= i < |tail| ==> Fixed(tail[i])
    ensures OpsOf(head + sends + replies + tail, k) == OpsOf(sends, k) + OpsOf(replies, k)
  {
    OpsOfFixed(head, k);
    OpsOfFixed(tail, k);
    OpsOfAppend(head + sends + replies, tail, k);
    OpsOfAppend(head + sends, replies, k);
    OpsOfAppend(head, sends, k);
  }

  /** How many members of family `k` the header and the source hold. */
  lemma FamiliesOf(methods: QMap<MethodDef>, f: Flags, baseClassName: string, serviceName: string, k: Kind)
    ensures OpsOf(PlanService(methods, f, baseClassName, serviceName).declared, k)
         == if k == SendKind || Exposed(f) then Keys(methods) else []
    ensures OpsOf(PlanService(methods, f, baseClassName, serviceName).defined, k)
         == if k == SendKind || (Exposed(f) && (k == GetterKind || k == SlotKind)) then Keys(methods) else []
  {
    var returnType := if f.synchronousness == Synchronous then SyncReturnType else AsyncReturnType;
    assert PlanService(methods, f, baseClassName, serviceName).declared == FacadeHeader(methods, returnType, Exposed(f));
    assert PlanService(methods, f, baseClassName, serviceName).defined == FacadeSource(methods, returnType, Exposed(f));
    HeaderFamiliesOf(methods, returnType, Exposed(f), k);
    SourceFamiliesOf(methods, returnType, Exposed(f), k);
  }

  /** Exactly one of three family counts is non-empty, so their sum is that one. */
  lemma OneOfThree(a: seq<string>, b: seq<string>, c: seq<string>, ks: seq<string>, pa: bool, pb: bool, pc: bool)
    requires !(pa && pb) && !(pa && pc) && !(pb && pc)
    requires a == (if pa then ks else []) && b == (if pb then ks else []) && c == (if pc then ks else [])
    ensures a + b + c == if pa || pb || pc then ks else []
  {
    if pa {
      assert a + b + c == ks + [] + [];
    } else if pb {
      assert a + b + c == [] + ks + [];
    } else if pc {
      assert a + b + c == [] + [] + ks;
    } else {
      assert a + b + c == [] + [] + [];
    }
  }

  lemma HeaderFamiliesOf(methods: QMap<MethodDef>, returnType: string, exposed: bool, k: Kind)
    ensures OpsOf(FacadeHeader(methods, returnType, exposed), k) == if k == SendKind || exposed then Keys(methods) else []
  {
    var sends := Each(methods, SendKind, returnType);
    var replies := Pair(methods, exposed, GetterKind, SlotKind);
    var fields := Pair(methods, exposed, ResultKind, InstanceKind);
    assert OpsOf(FacadeHeader(methods, returnType, exposed), k) == OpsOf(sends, k) + OpsOf(replies, k) + OpsOf(fields, k) by {
      HeaderFamilies([FacadeCtor, FacadeDtor, GetMethodNames], sends, [GetHostUrl, GetHost, IsErrorState], replies, fields, k);
    }
    OpsOfEach(methods, SendKind, returnType, k);
    OpsOfPair(methods, exposed, GetterKind, SlotKind, k);
    OpsOfPair(methods, exposed, ResultKind, InstanceKind, k);
    OneOfThree(OpsOf(sends, k), OpsOf(replies, k), OpsOf(fields, k), Keys(methods),
               k == SendKind, exposed && (k == GetterKind || k == SlotKind), exposed && (k == ResultKind || k == InstanceKind));
  }

  lemma SourceFamiliesOf(methods: QMap<MethodDef>, returnType: string, exposed: bool, k: Kind)
    ensures OpsOf(FacadeSource(methods, returnType, exposed), k)
         == if k == SendKind || (exposed && (k == GetterKind || k == SlotKind)) then Keys(methods) else []
  {
    var sends := Each(methods, SendKind, returnType);
    var replies := Pair(methods, exposed, GetterKind, SlotKind);
    assert OpsOf(FacadeSource(methods, returnType, exposed), k) == OpsOf(sends, k) + OpsOf(replies, k) by {
      SourceFamilies([FacadeCtor, FacadeDtor, GetMethodNames], sends, replies, [GetHostUrl, GetHost, IsErrorState, Init], k);
    }
    OpsOfEach(methods, SendKind, returnType, k);
    OpsOfPair(methods, exposed, GetterKind, SlotKind, k);
    OneOfThree(OpsOf(sends, k), OpsOf(replies, k), [], Keys(methods),
               k == SendKind, exposed && (k == GetterKind || k == SlotKind), false);
    assert OpsOf(sends, k) + OpsOf(replies, k) + [] == OpsOf(sends, k) + OpsOf(replies, k);
  }

  /**
   * Every `<op>Send` in the header returns QString when synchronous and
   * void when asynchronous, and takes the same parameter list the
   * corresponding message class takes.
   */
  lemma SendSignatures(methods: QMap<MethodDef>, f: Flags, baseClassName: string, serviceName: string, i: nat)
    requires i < |methods|
    ensures Send(methods[i].key,
                 if f.synchronousness == Synchronous then "QString" else "void",
                 Join(", ", Declarations(methods[i].value.params)))
            in PlanService(methods, f, baseClassName, serviceName).declared
  {
    var returnType := if f.synchronousness == Synchronous then SyncReturnType else AsyncReturnType;
    var sends := Each(methods, SendKind, returnType);
    assert sends[i] == Send(methods[i].key, returnType, ParamList(methods[i].value.params));
    SendsInHeader(methods, returnType, Exposed(f), sends[i]);
  }

  lemma SendsInHeader(methods: QMap<MethodDef>, returnType: string, exposed: bool, t: FacadeMember)
    requires t in Each(methods, SendKind, returnType)
    ensures t in FacadeHeader(methods, returnType, exposed)
  {
    var front := [FacadeCtor, FacadeDtor, GetMethodNames] + Each(methods, SendKind, returnType);
    assert t in front;
  }

  /**
   * The facade and the message classes fit together: a synchronous
   * `<op>Send` calls the static sendMessage of the class generated for that
   * method, with the argument list that class's own static sender
   * forwards, and declares the parameter list that class declares.
   */
  lemma FacadeMatchesMessages(methods: QMap<MethodDef>, f: Flags, baseClassName: string, serviceName: string, i: nat)
    requires i < |methods| && |methods[i].value.returnNames| > 0
    requires f.synchronousness == Synchronous
    ensures PlanService(methods, f, baseClassName, serviceName).calls[i]
         == BlockingCall(MessagePlanner.PlanMessage(methods[i].value, f).className,
                         MessagePlanner.PlanMessage(methods[i].value, f).arguments)
    ensures Send(methods[i].key, "QString", MessagePlanner.PlanMessage(methods[i].value, f).parameters)
            in PlanService(methods, f, baseClassName, serviceName).declared
  {
    SendSignatures(methods, f, baseClassName, serviceName, i);
  }

  /**
   * Asynchronous compact mode forwards every call to an owned instance the
   * header never declares, and connects its signal to an empty slot name.
   */
  lemma CompactAsyncDangling(methods: QMap<MethodDef>, f: Flags, baseClassName: string, serviceName: string, i: nat)
    requires i < |methods|
    requires f.synchronousness == Asynchronous && f.mode == Compact
    ensures PlanService(methods, f, baseClassName, serviceName).calls[i].ForwardCall?
    ensures PlanService(methods, f, baseClassName, serviceName).connections[i].slot == None
    ensures OpsOf(PlanService(methods, f, baseClassName, serviceName).declared, InstanceKind) == []
  {
    FamiliesOf(methods, f, baseClassName, serviceName, InstanceKind);
  }
}

=== FILE: settings.dfy ===
/** The generation switches, resolved once per run. */
module Settings {
  import opened Options

  datatype Mode = Compact | Full | Debug
  datatype Synchronousness = Synchronous | Asynchronous
  datatype Protocol = Http | Soap10 | Soap12
  datatype BuildSystem = NoBuildSystem | QMake

  datatype Flags = Flags(
    mode: Mode,
    synchronousness: Synchronousness,
    protocol: Protocol,
    buildSystem: BuildSystem)

  /** The enumerators of the `Protocol` enum each generated message class declares. */
  const ProtocolEnumerators: seq<string> := ["http", "soap10", "soap12"]

  /** The literal the generated constructors assign to `protocol`. */
  function ProtocolLiteral(p: Protocol): (lit: string)
    ensures lit in ProtocolEnumerators
  {
    match p
    case Soap10 => "soap10"
    case Soap12 => "soap12"
    case Http => "http"
  }

  /** Reads an enumerator back; the partner of ProtocolLiteral. */
  function ParseProtocol(lit: string): Option<Protocol>
  {
    if lit == "http" then Some(Http)
    else if lit == "soap10" then Some(Soap10)
    else if lit == "soap12" then Some(Soap12)
    else None
  }

  /** Each protocol gets its own literal, and that literal names it. */
  lemma ProtocolLiteralRoundTrip(p: Protocol)
    ensures ParseProtocol(ProtocolLiteral(p)) == Some(p)
  {
  }
}

=== FILE: signatures.dfy ===
/**
 * The comma-separated lists the generator splices into signatures and calls:
 * "type name, type name" for declarations and "name, name" for arguments.
 * Both are built by appending "item, " for each map entry and chopping the
 * final two characters.
 */
module Signatures {
  import opened QStrings
  import opened QMaps
  import opened Wsdl

  /** "type name" for one parameter. */
  function Declaration(e: Entry<Variant>): string
  {
    e.value.typeName + " " + e.key
  }

  function Declarations(ps: seq<Entry<Variant>>): seq<string>
  {
    seq(|ps|, i requires 0 <= i < |ps| => Declaration(ps[i]))
  }

  /** The running `list += item + ", "` accumulation. */
  function Accumulate(xs: seq<string>): string
  {
    if |xs| == 0 then [] else Accumulate(xs[..|xs| - 1]) + xs[|xs| - 1] + ", "
  }

  lemma {:induction false} AccumulateIsJoin(xs: seq<string>)
    ensures |xs| == 0 ==> Accumulate(xs) == []
    ensures |xs| > 0 ==> Accumulate(xs) == Join(", ", xs) + ", "
  {
    if |xs| > 1 {
      AccumulateIsJoin(xs[..|xs| - 1]);
    }
  }

  /** Accumulate, then chop the trailing separator. */
  function ChoppedList(xs: seq<string>): (r: string)
    ensures r == Join(", ", xs)
  {
    AccumulateIsJoin(xs);
    Chop(Accumulate(xs), 2)
  }

  /**
   * The parameter list: the ", "-join of "type name" over the parameters in
   * ascending name order; empty exactly when there are no parameters.
   */
  function ParamList(ps: QMap<Variant>): (r: string)
    ensures r == Join(", ", Declarations(ps))
    ensures r == [] <==> |ps| == 0
  {
    assert forall i :: 0 <= i < |ps| ==> Declarations(ps)[i][|ps[i].value.typeName|] == ' ';
    JoinEmpty(", ", Declarations(ps));
    ChoppedList(Declarations(ps))
  }

  /** The argument list: the ", "-join of the parameter names in ascending order. */
  function ArgList(ps: QMap<Variant>): (r: string)
    ensures r == Join(", ", Keys(ps))
  {
    ChoppedList(Keys(ps))
  }

  /** The reply name: the first entry of getReturnValueName(). */
  function ReplyName(returnNames: seq<string>): string
    requires |returnNames| > 0
  {
    returnNames[0]
  }

  /** The reply type: the type of the first return entry, or empty when there is none. */
  function ReplyType(results: QMap<Variant>): string
  {
    if |results| == 0 then [] else results[0].value.typeName
  }

  /** Return entries after the first are discarded: adding one never changes the reply type. */
  lemma ReplyTypeIgnoresLaterReturns(results: QMap<Variant>, k: string, v: Variant)
    requires |results| > 0 && Below(results[0].key, k)
    ensures ReplyType(Insert(results, k, v)) == ReplyType(results)
  {
    BelowAsymmetric(results[0].key, k);
    BelowIrreflexive(k);
  }

  /**
   * The order in which parameters are declared does not show in either
   * list: the lists depend only on which parameters there are.
   */
  lemma ListsIgnoreDeclarationOrder(d1: seq<Entry<Variant>>, d2: seq<Entry<Variant>>)
    requires DistinctKeys(d1) && DistinctKeys(d2)
    requires forall e :: e in d1 <==> e in d2
    ensures ParamList(FromDeclared(d1)) == ParamList(FromDeclared(d2))
    ensures ArgList(FromDeclared(d1)) == ArgList(FromDeclared(d2))
  {
    DeclarationOrderIrrelevant(d1, d2);
  }
}

=== FILE: wsdl.dfy ===
/** What the generator reads for one web-service method (a QSoapMessage). */
module Wsdl {
  import opened QMaps

  /** What the generator uses of a QVariant: its type name and its string form. */
  datatype Variant = Variant(typeName: string, text: string)

  datatype MethodDef = MethodDef(
    name: string,                // getMessageName()
    targetNamespace: string,     // getTargetNamespace()
    params: QMap<Variant>,       // getParameterNamesTypes()
    returnNames: seq<string>,    // getReturnValueName()
    results: QMap<Variant>)      // getReturnValueNameType()
}
